=== FILE: README.md ===
# deploycli, modelled in Dafny

deploycli is a small task-deployment tool made of two programs:

- The **server** keeps task bundles under `./tasks/{name}-{uuid}/`. Each bundle is a directory holding a `config.toml` manifest and a `run.sh` or `run.bat` script. The server also keeps a registry of the tasks (a polodb collection) and answers five HTTP endpoints behind a password check:
  - list
  - download: a zip archive of the bundle, or 304 when the client's MD5 digest matches
  - upload: unpack an archive and register its manifest
  - delete
  - update: reconcile the registry with the bundles on disk
- The **client** is a command-line program. It:
  - creates new task directories;
  - fetches a task by index into `/tmp`, caches the archive there, unpacks it and runs its script after a confirmation;
  - uploads a task directory;
  - deletes a task;
  - cleans cached archives.

This project models the decisions these programs make, as state changes of the directories involved:

- server handlers: `./tasks` and the registry;
- client commands: the current directory and `/tmp`.

It proves what the handlers and commands promise, alone and together. The modules are:

| module | file | models |
|---|---|---|
| `Common` | common.dfy | tasks, the filesystem (`Area`, `Dir`), zip entries, the environment of uninterpreted functions (MD5, the zip container, the TOML parse, body text), string helpers |
| `Archive` | archive.dfy | `create_zip`, `unpack_zip` and their round trip |
| `Registry` | registry.dfy | `TaskDatabase` (a class whose `records` field is the collection) and the reconciliation `update` |
| `Rendering` | rendering.dfy | `AppResult`, `AppError` and how they are rendered |
| `Router` | router.dfy | the five handlers and `auth_middleware`; `Server` is a class over `./tasks` and the database |
| `Exec` | exec.dfy | `run_script`: the confirmation, the input relay loop, the reported outcome |
| `Scaffold` | scaffold.dfy | `create_new_task`: the template filling and the files written |
| `Client` | client.dfy | the client commands as specification functions, with their properties |
| `ClientHost` | host.dfy | `Host`, a class over the current directory and `/tmp` whose methods perform the commands |
| `Protocol` | protocol.dfy | the client and the server together: fetch, upload and delete end to end |

The uninterpreted functions are parameters collected in `Common.Env`:

- the MD5 digest rendered as hex;
- zip writing and reading;
- the parse of `config.toml`;
- `Response::text`, the decoding of a reply body as text.

Properties that need the zip reader to invert the writer take `ZipSound(env)` as a hypothesis. Every method's `ensures` ties its new state to a specification function. The lemmas beside that function state what the source promises.

## Model

| member | source | states |
|---|---|---|
| Archive.PackedSound | src/utils.rs:25-36 | every archived entry is a regular file of the listed directory, with its full bytes, Zstd compression, mode 0o755 and the default timestamp |
| Archive.PackedComplete | src/utils.rs:25-36 | every regular file the listing names is archived under its bare name; subdirectories are skipped |
| Archive.PackedDistinct | src/utils.rs:25-36 | a listing without repeated names yields entries without repeated names |
| Archive.PackIgnoresMetadata | src/utils.rs:20-23 | two directories with the same files and bytes give the same entries, whatever their permissions and timestamps |
| Archive.CreateZip | src/utils.rs:16-39 | the loop writes exactly the entries the specification describes; on success the archive is the one new path and holds the written entries |
| Archive.MakeDirs | src/utils.rs:52-59 | `create_dir_all` succeeds iff none of the paths is a file; it adds exactly those paths as directories and keeps the rest |
| Archive.WriteEntry | src/utils.rs:49-61 | a name ending in '/' creates that directory; a file entry's path holds its bytes; nothing already present disappears |
| Archive.UnpackSpec | src/utils.rs:41-63 | the destination exists afterwards, and is a directory when it was absent, even if the archive cannot be read |
| Archive.WriteAllKeeps | src/utils.rs:49-61 | extraction never removes a path of the destination, whether or not it fails |
| Archive.UnpackKeepsExisting | src/utils.rs:41-63 | unpacking changes only the destination entry of the surrounding directory |
| Archive.WriteAllFlat | src/utils.rs:49-61 | distinct flat file entries all succeed and each path holds its entry's bytes; other paths keep their content |
| Archive.UnpackZip | src/utils.rs:41-63 | the method's new directory and outcome are those of `UnpackSpec` |
| Archive.WriteEntries | src/utils.rs:49-61 | the extraction loop stops at the first failing entry and keeps what the earlier entries wrote |
| Archive.RoundTrip | src/utils.rs:134-150 | unpacking what `create_zip` wrote succeeds and recreates every regular file of the directory with its bytes, into a fresh destination or over one with no directory in the way |
| Registry.Find | src/db.rs:55-56 | `find_one` yields the first record with the uuid and name; none exactly when no record has the key |
| Registry.Retain | src/db.rs:39 | the retained records are records of the snapshot differing from the task in both uuid and name |
| Registry.UpsertEffect | src/db.rs:52-67 | `add_task` updates only the description of the first record with the key, or appends the task when there is none |
| Registry.UpsertKeepsUnique | src/db.rs:52-67 | `add_task` never creates a second record for a key |
| Registry.GetAfterUpsert | src/db.rs:52-78 | after `add_task(t)`, `get_task(t.uuid, t.name)` returns `t` |
| Registry.GetFailsIffAbsent | src/db.rs:71-78 | `get_task` fails with "Task not found" iff no record has the key; otherwise it returns a record with the key |
| Registry.RemoveFirstEffect | src/db.rs:91-98 | `delete_tasks` fails with "Task not found" iff no record has the key; otherwise exactly the first such record is removed |
| Registry.CountUpsert | src/db.rs:52-67 | an upsert adds records only under the task's own key and never loses one |
| Registry.CountRemoveFirst | src/db.rs:91-98 | a deletion lowers its key's count by one and leaves every other key's count |
| Registry.RemoveFirstMembers | src/db.rs:91-98 | a deletion keeps every record with another key |
| Registry.CountRetain | src/db.rs:39 | the filter keeps every record of a key that shares neither field with the task |
| Registry.ScanShape | src/db.rs:29-42 | without a bad manifest, the scan loop upserts every task on disk in listing order and filters the snapshot by each |
| Registry.ScanStops | src/db.rs:29-42 | a bad manifest stops the scan with its error; the tasks listed before it stay upserted |
| Registry.RetainAllFacts | src/db.rs:39 | the filtered snapshot holds exactly the records that share neither uuid nor name with any task on disk |
| Registry.UpsertAllCounts | src/db.rs:29-42 | keys no task on disk declares keep their record count through the scan; no count decreases |
| Registry.UpsertAllKeeps | src/db.rs:29-42 | a record no later upsert touches survives the scan |
| Registry.UpsertAllHasLast | src/db.rs:29-42 | the last task on disk with a given key is recorded exactly |
| Registry.DeleteAllFacts | src/db.rs:44-47 | the deletion loop succeeds when every pending key is stored exactly as often as it is pending; it then removes those keys entirely and keeps every record of other keys |
| Registry.DeleteAllOnlyRemoves | src/db.rs:44-47 | succeed or fail, the deletion loop only removes records |
| Registry.PendingCounts | src/db.rs:29-47 | each key left in the snapshot is stored after the scan exactly as often as it is pending |
| Registry.DeletePhase | src/db.rs:44-47 | the deletion loop after the scan succeeds, keeps every record whose key is not stale and leaves no stale key |
| Registry.ReconcileSuccess | src/db.rs:21-49 | after a successful `update`, the last disk task per key is recorded; records sharing a field with a disk task keep their key; no stale key remains |
| Registry.ReconcileWithoutDirectory | src/db.rs:23-25 | without `./tasks`, `update` fails with "Data directory does not exist" and changes nothing |
| Registry.ReconcileAborts | src/db.rs:29-42 | a bad manifest aborts `update` with its error, keeping the upserts before it and deleting nothing |
| Registry.SharedNameKeepsStaleRecord | src/db.rs:39 | the record ("u1", "a") survives `update` beside the disk task ("u2", "a"), although no bundle declares its key |
| Registry.RetainOthers | src/db.rs:38-39 | the intended filter keeps exactly the records whose key differs from the task's |
| Registry.CountRetainOthers | src/db.rs:38-39 | the intended filter keeps every record of another key |
| Registry.RetainOthersAllFacts | src/db.rs:38-43 | the intended snapshot after the scan holds exactly the records whose key no disk task declares |
| Registry.ScanIntendedShape | src/db.rs:29-42 | with the intended filter and without a bad manifest, the scan upserts every disk task |
| Registry.UpsertAllHasKey | src/db.rs:37 | every task upserted leaves a record with its key |
| Registry.DeletePhaseIntended | src/db.rs:43-47 | the intended deletion loop succeeds and removes exactly the keys no disk task declares |
| Registry.ReconcileIntendedSuccess | src/db.rs:21-49 | after the intended `update`, a key is registered iff a bundle on disk declares it, and the last disk task per key is recorded |
| Registry.SharedNameIntended | src/db.rs:38-39 | on the listing above, the intended `update` keeps only ("u2", "a") |
| Registry.TaskDatabase.constructor | src/db.rs:14-18 | the database opens holding the given collection |
| Registry.TaskDatabase.AddTask | src/db.rs:52-67 | the collection becomes the upsert of the task, and `get_task` then finds the task |
| Registry.TaskDatabase.GetTask | src/db.rs:71-78 | returns the first record with the key, or "Task not found" iff there is none |
| Registry.TaskDatabase.GetAllTasks | src/db.rs:81-88 | returns the collection in storage order |
| Registry.TaskDatabase.DeleteTasks | src/db.rs:91-98 | "Task not found" with nothing changed iff no record has the key; otherwise the first such record is gone |
| Registry.TaskDatabase.Update | src/db.rs:21-49 | the two loops leave the collection and outcome that `Reconcile` describes |
| Rendering.ErrorText | src/result.rs:36-45 | `AnyHow` renders as "Internal Server Error: " and `Io` as "IO Error: ", each followed by the message |
| Rendering.Render | src/result.rs:24-46 | the value 0 leaves the prepared response; any other value becomes 200 with its JSON; an error becomes 500 with its text |
| Rendering.OnlyZeroKeepsResponse | src/result.rs:26-29 | 0 is the only success value whose rendering leaves every prepared response as it was |
| Rendering.ErrorsAreServerErrors | src/result.rs:34-46 | every error, "Task not found" included, is answered 500 and never 4xx |
| Rendering.ErrorTextInjective | src/result.rs:36-45 | distinct errors render as distinct texts |
| Router.DownloadValidation | src/router.rs:23-31 | the fields are checked in the order name, uuid, md5, then the bundle directory; each check has its own error, and nothing changes before the archive is built |
| Router.DownloadNegotiation | src/router.rs:33-57 | with a free zip path, the reply is 304 with an empty body iff the form's md5 equals the archive's digest, otherwise 200 with the archive; the temporary archive is removed |
| Router.DownloadZipPathBlocked | src/router.rs:33-34 | a directory at the zip path makes the handler fail with an I/O error, changing nothing |
| Router.UploadSuccess | src/router.rs:61-80 | a successful upload replaces the destination with exactly what the archive unpacks to, and records the unpacked manifest's task, which `get_task` then returns |
| Router.UploadWithoutManifest | src/router.rs:69-74 | an archive without `config.toml` is refused with the registry unchanged, but its unpacked directory stays |
| Router.UploadFailureKeepsRegistry | src/router.rs:61-80 | every failing upload leaves the registry as it was |
| Router.DeleteEffect | src/router.rs:83-97 | without a bundle directory, "Task not found" and no change; with one, the directory is removed, and the registry loses the first record with the key or the handler fails |
| Router.Listing | src/db.rs:29-36 | the listing seen by `update` has one entry per listed name present in `./tasks`, in listing order, each the entry that child is seen as |
| Router.ListEntry | src/db.rs:31-36 | a file and a directory without `config.toml` are skipped; a TOML error is passed on as the parser reports it; a manifest is accepted, as the same task, exactly when `upload_task` would accept it |
| Router.ListingManifests | src/db.rs:29-36 | a task reaches the reconciliation iff a listed directory's manifest parses to it |
| Router.Authorize | src/router.rs:106-118 | a matching header passes the response through; a wrong one gives 401 "Unauthorized"; a missing one gives 401 "Missing Authorization header" |
| Router.AuthorizeExact | src/router.rs:106-118 | the response is left alone iff the header equals the password; otherwise the status is 401 |
| Router.Server.constructor | src/router.rs:120-127 | the server starts over the given `./tasks` and database |
| Router.Server.ListTasks | src/router.rs:16-19 | returns every registered task |
| Router.Server.DownloadTask | src/router.rs:22-58 | `./tasks`, the result and the response become those of `DownloadSpec` |
| Router.Server.UploadTask | src/router.rs:61-80 | `./tasks`, the registry and the result become those of `UploadSpec` |
| Router.Server.DeleteTask | src/router.rs:83-97 | `./tasks`, the registry and the result become those of `DeleteSpec` |
| Router.Server.UpdateDatabase | src/router.rs:100-103 | the registry is reconciled with the listing of `./tasks`; success renders as JSON null, failure as the `AnyHow` error |
| Exec.ConfirmedExactly | src/utils.rs:75-83 | the answer confirms iff, once trimmed, it is "y" or "Y" |
| Exec.IsQuitExactly | src/utils.rs:108-110 | a line ends the relay iff, once trimmed, it is ":q" or ":Q" |
| Exec.ConfirmationExamples | src/utils.rs:75-83 | "y\n" and "  Y \r\n" confirm; "yes\n", "\n" and "n\n" do not |
| Exec.RelayFrom | src/utils.rs:97-117 | the lines before the stop are forwarded and none is a quit line; the stop is a quit line, a refused write or the end of input |
| Exec.RelayFirstQuit | src/utils.rs:97-117 | the relay forwards min(first quit position, pipe capacity) lines and stops for the matching reason |
| Exec.RelayLines | src/utils.rs:97-117 | the loop forwards exactly the relayed prefix of the lines, verbatim, and stops for the relay's reason |
| Exec.RunScript | src/utils.rs:65-127 | the script runs iff it was read, confirmed and spawned on Unix, and then reports success iff exit code 0; a refused answer cancels; missing or unreadable scripts panic with their messages |
| Exec.OutcomeOnlyFromStatus | src/utils.rs:120-125 | a confirmed run's outcome depends on the exit status alone |
| Scaffold.ReplaceSkips | src/bin/client.rs:144-146 | text without the pattern's first character passes through `replace` unchanged |
| Scaffold.ReplaceShort | src/bin/client.rs:144-146 | text shorter than the pattern is unchanged |
| Scaffold.ReplaceFront | src/bin/client.rs:144-146 | a leading occurrence is replaced, and the scan continues after it |
| Scaffold.ReplaceOne | src/bin/client.rs:144-146 | the first occurrence after a pattern-free prefix is replaced |
| Scaffold.ReplaceNone | src/bin/client.rs:144-146 | text without the pattern's first character is left alone |
| Scaffold.ReplaceMismatch | src/bin/client.rs:144-146 | text that differs from the pattern at its start keeps its first character |
| Scaffold.FillUuid | src/bin/client.rs:144-145 | replacing `{uuid}` fills the uuid slot and leaves `{name}` |
| Scaffold.NamePlaceholderKept | src/bin/client.rs:144-145 | `{name}` is not touched by the `{uuid}` replacement |
| Scaffold.FillName | src/bin/client.rs:146 | replacing `{name}` fills the name slot, whatever the name contains |
| Scaffold.FillTemplate | src/bin/client.rs:138-146 | the two replacements turn the template into the manifest naming the uuid and the task |
| Scaffold.FillConfig | src/bin/client.rs:138-146 | with a UUID's text, the filled template is the manifest for that uuid and name |
| Client.GetWithoutSelection | src/bin/client.rs:227-238 | when no task is selected, no download request is made and nothing on disk changes; only an undecodable listing is an error |
| Client.FetchSendsCacheDigest | src/bin/client.rs:240-256 | the one request carries the task's uuid, name and the digest of the cached archive |
| Client.DigestSource | src/bin/client.rs:240-244 | the digest covers the cache's bytes when it is a readable file, and no bytes otherwise |
| Client.FetchNotModified | src/bin/client.rs:258-297 | on 304, the cached archive is copied and unpacked with only the unpack destination changing, and the script runs iff unpacking succeeded on Unix; with no readable cache, the copy fails with std's text for a missing file or a non-regular source and nothing runs |
| Client.FetchRefused | src/bin/client.rs:263-268 | any other non-2xx status fails with "Failed to download task " followed by the reply body as text, leaving the cache untouched and an empty working archive behind |
| Client.FetchReceived | src/bin/client.rs:269-297 | a 2xx body replaces the cache and is unpacked; the working archive is removed; the script runs iff unpacking succeeded on Unix |
| Client.LastDot | src/bin/client.rs:427-433 | returns the position of the last '.', or none when there is none |
| Client.CleanZipIsCacheZip | src/bin/client.rs:427-433 | the archive `clean_cache` removes is the cached one iff the key has no '.' after its first character |
| Client.CleanAllEffect | src/bin/client.rs:418-434 | cleaning only removes; untargeted paths stay; on success every target is gone; it succeeds when every present target has the right kind |
| Client.CleanSpecEffect | src/bin/client.rs:403-434 | an index out of range fails with nothing removed; otherwise only the selected task's paths may go |
| Client.DeleteCleansShiftedTask | src/bin/client.rs:362-387 | after the server deletes the selected task, the last one is reported out of range and nothing is cleaned; any other index cleans the next task's cache |
| Client.DeleteLastTaskExample | src/bin/client.rs:368-382 | with tasks a and b, deleting index 1 fails with "Task index out of range" and b's cache stays |
| Client.DeleteIntendedCleansDeleted | src/bin/client.rs:362-387 | with the index applied to the listing the deletion came from, the deleted task's cache directory and archive are removed and nothing else |
| Client.CleanOneMissesDottedCache | src/bin/client.rs:427-433 | for a key with an inner '.', cleaning leaves the cached archive as it was |
| Client.DottedNameExample | src/bin/client.rs:427-433 | task "v1.2" with uuid "u" is cached as `v1.2-u.zip`, but cleaning targets `v1.zip` |
| Client.CleanIntendedEffect | src/bin/client.rs:418-434 | cleaning by the cached archive's own path removes exactly the cache directory and archive, for every name |
| Client.UploadChecks | src/bin/client.rs:310-360 | checks come in the order path, `config.toml`, parse, script, each failing with its own message (a TOML error comes before a missing script); a failure sends nothing and changes nothing; otherwise the archive `create_zip` wrote is sent as `{name}-{uuid}` and `{name}.zip` is removed |
| Client.NewTaskUploads | src/bin/client.rs:135-175 | a freshly created task passes every upload check and is sent as `{name}-{uuid}` |
| ClientHost.Host.constructor | src/bin/client.rs:65-133 | the host starts with the given current directory and `/tmp` |
| ClientHost.Host.GetTaskByIndex | src/bin/client.rs:227-308 | both directories, the outcome and whether the script runs become those of `GetSpec` |
| ClientHost.Host.CleanCache | src/bin/client.rs:403-436 | `/tmp` and the outcome become those of `CleanSpec`; the current directory is unchanged |
| ClientHost.Host.RemoveCaches | src/bin/client.rs:418-434 | the loop leaves `/tmp` and the outcome that `CleanAll` describes |
| ClientHost.Host.DeleteTask | src/bin/client.rs:362-387 | `/tmp` and the outcome become those of `DeleteSpec`, which re-lists before cleaning |
| ClientHost.Host.UploadTask | src/bin/client.rs:310-360 | the current directory, the outcome and the request sent become those of `UploadSpec` |
| ClientHost.Host.NewTask | src/bin/client.rs:135-175 | the current directory gains the task directory of `NewTaskSpec`, with the manifest and the platform's script |
| Protocol.Served | src/router.rs:22-58 | a download form always gets a status, one of 200, 304 and 500 |
| Protocol.KeysAgree | src/bin/client.rs:248-256 | the client's cache key is the server's bundle directory name, the cached archive's name is the server's zip name, and the forms name the task |
| Protocol.HostedReply | src/router.rs:36-52 | a hosted task's form gets 304 with no body iff its digest matches the archive, otherwise 200 with the archive |
| Protocol.FetchFromServer | src/bin/client.rs:248-297 | against a hosting server, the transfer is skipped iff the cache's digest matches the archive's; the fetch fails only when there is no cache yet the empty digest matches; on success the working archive is gone and the cache's digest is the archive's |
| Protocol.SecondFetchNotModified | src/bin/client.rs:258-297 | after a successful fetch, fetching again is answered 304 and unpacks the cached archive; the script runs iff that unpacking succeeded on Unix |
| Protocol.FetchUnhosted | src/router.rs:29-31 | a task the server does not host is refused with 500, and the client reports "Failed to download task " followed by the text of the server's "Internal Server Error: Task not found" body, keeping its cache |
| Protocol.ServerUnpacks | src/router.rs:61-80 | an archive of a flat task directory is stored under the sent name with every file, and the task is registered |
| Protocol.UnpackedManifest | src/router.rs:71-76 | the unpacked `config.toml` is the task directory's |
| Protocol.ServerRegisters | src/router.rs:75-79 | once the archive unpacks with a readable manifest, the upload succeeds and registers that task |
| Protocol.UnpackedBundle | src/router.rs:65-69 | the archive of a flat directory unpacks under the destination, replacing any previous bundle |
| Protocol.HostsOnceStored | src/router.rs:26-34 | storing a bundle under a task's key makes the server host it unless its zip path is a directory |
| Protocol.ClientSends | src/bin/client.rs:333-346 | a directory passing the checks sends its archive under the task's key |
| Protocol.UploadRoundTrip | src/bin/client.rs:310-360 | an uploaded flat task directory is registered, `get_task` returns its task, and the server then hosts it |
| Protocol.DeletedIsUnhosted | src/router.rs:83-97 | once the server deletes a task's bundle, the client's next fetch of it is refused with the "Task not found" error |

## Left out

- HTTP transport: salvo routing, reqwest, multipart parsing and `send_file` streaming are not modelled. The reply is a status and a body. Range and conditional request handling of `send_file` (RFC 9110, section 13) are left out.
- The MD5 digest, the zip container format and the TOML parse are uninterpreted functions. Zip internals, `mangled_name` sanitising and Zstd are not modelled. Archive names are assumed to be base names or relative paths.
- polodb storage errors (`?` on the collection calls) are not modelled. The collection is a sequence that cannot fail to read or write.
- Child processes and the relay thread: `spawn`, pipe writes and exit status are inputs to `Exec.RunScript` and `Exec.RelayLines`. The concurrency of the relay with the running script is not modelled.
- Concurrent requests on the server are not modelled. Two downloads of one task share the zip path `./tasks/{key}.zip`.
- src/config.rs and src/main.rs (configuration loading, logging, binding the listener) are not part of this model, nor are `create_default_config` and `read_config` in the client.
- `main` of the client (argument parsing with clap, coloured output) is not modelled. `Host` methods are its commands.
- The client's `list_tasks` and `update_database` only print the reply and are not modelled.
- UUID generation is an input to `create_new_task`. `Scaffold.IsUuidText` states only that it has the characters of a UUID's text.
- Router.Authorize: does not model the hoop's effect on the handlers after a 401. The response is modelled, not whether the handler still runs.
- JSON serialisation of response bodies is the uninterpreted parameter `json` of `Protocol.DownloadServer`.
- Exec.RelayLines: end of input is modelled as `EndOfInput`. The source keeps reading empty lines at end of input.
- Scaffold.NewTaskSpec: writing `run.sh` and setting its mode 0o755 are one step. `fs::write` failures after the directory was created are not modelled; only an existing name fails.
- Router.UploadSpec, Router.DownloadSpec, Router.DeleteSpec: the uploaded file name and `{name}-{uuid}` are taken as one child of `./tasks`. The source joins them to `./tasks` unchecked, so a name holding `/` or `..`, or an absolute name, makes `remove_dir_all`, `unpack_zip` and `create_zip` act outside `./tasks`. An empty uploaded name joins to `./tasks` itself, so `upload_task` removes the whole store and unpacks into it, where the model unpacks into a child named "". The model does not capture these cases.
- Archive.CreateZipSpec: every file of a bundle is readable here. The source fails on an unreadable file after `./tasks/{key}.zip` was created, and `download_task` then returns 500 and leaves that archive behind; the model does not capture that.
- Client.FetchSpec: reading the reply body for the error text (`text()?`) cannot fail here; the decoding itself is the uninterpreted `text`.
- Archive.WriteEntry: an existing file that an entry overwrites gets `stamp` as its metadata. `fs::File::create` truncates it and keeps its mode, but nothing in the program reads the mode of an unpacked file.
- Archive.MakeDirs: `create_dir_all` is all-or-nothing here. The source may create some ancestors before failing.
- OS error texts ("Is a directory", "No such file or directory", "Not a directory", "File exists") are representative. The source forwards the operating system's message. Where std reports its own text, the model uses it: `Client.NotRegularFile` for `fs::copy` from a directory (src/bin/client.rs:277).

## Findings

The methods of `Registry.TaskDatabase` and `ClientHost.Host` follow the code as written. The corrected definitions are stated and proved beside them.

| source | as written | input that shows it | evidently intended | confidence | as-written member | corrected member |
|---|---|---|---|---|---|---|
| src/bin/client.rs:362-382 | `delete_task` lists the tasks again after the server deleted one, and cleans the cache of the task at the same index in the new listing | tasks [a, b], `delete 1`: b is deleted on the server, then the second listing [a] has no index 1, so the command reports "Task index out of range" and b's cache stays | clean the cache of the task that was deleted | high, not executed | Client.DeleteCleansShiftedTask, Client.DeleteLastTaskExample | Client.DeleteIntendedCleansDeleted |
| src/bin/client.rs:427-433 | `clean_cache` removes `/tmp/{name}-{uuid}` with its extension replaced by `zip` | task "v1.2" with uuid "u": the cache is `/tmp/v1.2-u.zip` but `with_extension` gives `/tmp/v1.zip`, so the cached archive survives | remove `/tmp/{name}-{uuid}.zip`, the path `get_task_by_index` caches to | high, not executed | Client.CleanOneMissesDottedCache, Client.DottedNameExample | Client.CleanIntendedEffect |
| src/db.rs:39 | `update` keeps pending only the snapshot records that differ from the disk task in both uuid and name; a record sharing either field is struck from the snapshot and never deleted | record ("u1", "a") in the registry, one bundle declaring ("u2", "a"): the record is struck from the snapshot, never deleted, and the registry ends with both records | strike only the record with the disk task's key, so the registry ends with exactly the keys declared on disk | medium, not executed | Registry.SharedNameKeepsStaleRecord, Registry.ReconcileSuccess | Registry.ReconcileIntendedSuccess, Registry.SharedNameIntended |

=== FILE: archive.dfy ===
/** `create_zip` and `unpack_zip` (src/utils.rs) over an archive that is a
    list of entries. The container bytes are `env.zipWrite(entries)`; reading
    them back is `env.zipRead`. */
module Archive {
  import opened Common

  // ---------------------------------------------------------------------
  // Packing
  // ---------------------------------------------------------------------

  /** The entry `create_zip` writes for a file: Zstd, mode 0o755 and the default
      timestamp, whatever the source file's own metadata. */
  function PackedEntry(name: string, data: Bytes): Entry {
    Entry(name, data, Zstd, Mode755, DefaultZipTime)
  }

  /** `read_dir` of a directory: every direct child exactly once, in some order. */
  predicate IsListing(dir: Dir, order: seq<string>) {
    && (forall i, j :: 0 <= i < j < |order| ==> order[i] != order[j])
    && (forall n :: n in order ==> n in dir && IsBaseName(n))
    && (forall n :: n in dir && IsBaseName(n) ==> n in order)
  }

  /** The entries `create_zip` writes when `read_dir` yields `order`: one per
      regular file, subdirectories skipped, in listing order. */
  function Packed(dir: Dir, order: seq<string>): seq<Entry> {
    if order == [] then []
    else
      var n := order[0];
      (if n in dir && dir[n].File? then [PackedEntry(n, dir[n].data)] else []) + Packed(dir, order[1..])
  }

  /** Every packed entry is a regular file of the listing, with its full content
      and the fixed options. */
  lemma {:induction false} PackedSound(dir: Dir, order: seq<string>)
    ensures forall e :: e in Packed(dir, order) ==>
      && e.name in order && e.name in dir && dir[e.name].File? && e.data == dir[e.name].data
      && e.compression == Zstd && e.mode == Mode755 && e.mtime == DefaultZipTime
  {
    if order != [] {
      PackedSound(dir, order[1..]);
    }
  }

  /** Every regular file named in the listing is packed, under its bare name. */
  lemma {:induction false} PackedComplete(dir: Dir, order: seq<string>)
    ensures forall n :: n in order && n in dir && dir[n].File? ==>
      PackedEntry(n, dir[n].data) in Packed(dir, order)
  {
    if order != [] {
      PackedComplete(dir, order[1..]);
    }
  }

  /** A listing with no repeated names gives entries with no repeated names. */
  lemma {:induction false} PackedDistinct(dir: Dir, order: seq<string>)
    requires forall i, j :: 0 <= i < j < |order| ==> order[i] != order[j]
    ensures forall i, j :: 0 <= i < j < |Packed(dir, order)| ==>
      Packed(dir, order)[i].name != Packed(dir, order)[j].name
  {
    if order != [] {
      var rest := Packed(dir, order[1..]);
      PackedDistinct(dir, order[1..]);
      PackedSound(dir, order[1..]);
      assert forall e :: e in rest ==> e.name in order[1..];
      assert order[0] !in order[1..];
    }
  }

  /** Two directories holding the same files with the same bytes pack to the same
      entries, so to the same archive bytes and digest, whatever the files'
      permissions and timestamps. */
  lemma {:induction false} PackIgnoresMetadata(d1: Dir, d2: Dir, order: seq<string>)
    requires d1.Keys == d2.Keys
    requires forall n :: n in d1 ==> d1[n].File? == d2[n].File?
    requires forall n :: n in d1 && d1[n].File? ==> d1[n].data == d2[n].data
    ensures Packed(d1, order) == Packed(d2, order)
  {
    if order != [] {
      PackIgnoresMetadata(d1, d2, order[1..]);
    }
  }

  /** What `create_zip(src, zipName)` does to the directory holding both: the
      archive file is created (truncated) first; reading the source directory
      then fails unless it is a directory. */
  function CreateZipSpec(area: Area, src: string, zipName: string, order: seq<string>, env: Env): (Area, Outcome) {
    if zipName in area && area[zipName].Directory? then (area, Fail("Is a directory"))
    else
      var created := area[zipName := PlainFile([])];
      if src !in created || !created[src].Directory? then (created, Fail("Not a directory"))
      else (created[zipName := PlainFile(env.zipWrite(Packed(created[src].contents, order)))], Pass)
  }

  /** `create_zip`: the loop over the listing, proved to write the entries `Packed` describes. */
  method CreateZip(area: Area, src: string, zipName: string, order: seq<string>, env: Env)
    returns (area': Area, r: Outcome)
    ensures (area', r) == CreateZipSpec(area, src, zipName, order, env)
    ensures r.Pass? ==> area'.Keys == area.Keys + {zipName}
    ensures r.Pass? ==> area'[zipName] == PlainFile(env.zipWrite(Packed(area[src].contents, order)))
  {
    if zipName in area && area[zipName].Directory? {
      return area, Fail("Is a directory");
    }
    area' := area[zipName := PlainFile([])];
    if src !in area' || !area'[src].Directory? {
      return area', Fail("Not a directory");
    }
    var dir := area'[src].contents;
    assert src != zipName && dir == area[src].contents;
    var entries: seq<Entry> := [];
    var i := 0;
    while i < |order|
      invariant 0 <= i <= |order|
      invariant entries + Packed(dir, order[i..]) == Packed(dir, order)
    {
      var n := order[i];
      assert order[i..][1..] == order[i + 1..];
      if n in dir && dir[n].File? {
        entries := entries + [PackedEntry(n, dir[n].data)];
      }
      i := i + 1;
    }
    assert order[i..] == [];
    assert entries + [] == entries;
    assert entries == Packed(dir, order);
    area' := area'[zipName := PlainFile(env.zipWrite(entries))];
    r := Pass;
  }

  // ---------------------------------------------------------------------
  // Unpacking
  // ---------------------------------------------------------------------

  /** The proper ancestors of a relative path: what `create_dir_all(parent)` creates. */
  function Ancestors(p: string): set<string> {
    set i | 0 < i < |p| && p[i] == '/' :: p[..i]
  }

  /** `create_dir_all` for a set of paths: fails when one of them is a file. */
  function MakeDirs(d: Dir, ps: set<string>): (r: Option<Dir>)
    ensures r.Some? <==> forall p :: p in ps && p in d ==> d[p].Folder?
    ensures r.Some? ==> r.value.Keys == d.Keys + ps
    ensures r.Some? ==> forall p :: p in r.value ==> (if p in ps then r.value[p] == Folder else r.value[p] == d[p])
  {
    if exists p :: p in ps && p in d && d[p].File? then None
    else
      var m := map p | p in d.Keys + ps :: if p in ps then Folder else d[p];
      assert m.Keys == d.Keys + ps;
      Some(m)
  }

  /** How `unpack_zip` handles one entry: a name ending in '/' becomes a directory
      (with its parents); any other name gets its parents created and a file
      holding the entry's bytes. `stamp` is the metadata of the written file, whether
      it is new or overwrites one; nothing in the program reads that metadata. */
  function WriteEntry(d: Dir, e: Entry, stamp: Meta): (r: Option<Dir>)
    ensures r.Some? && IsDirEntry(e) && |e.name| > 1 ==>
      var p := e.name[..|e.name| - 1]; p in r.value && r.value[p] == Folder
    ensures r.Some? && !IsDirEntry(e) ==> e.name in r.value && r.value[e.name] == File(e.data, stamp)
    ensures r.Some? ==> d.Keys <= r.value.Keys
    ensures !IsDirEntry(e) && e.name != [] && Ancestors(e.name) == {} ==>
      (r.Some? <==> (e.name !in d || d[e.name].File?))
  {
    if IsDirEntry(e) then
      var p := e.name[..|e.name| - 1];
      if p == [] then Some(d) else MakeDirs(d, Ancestors(p) + {p})
    else if e.name == [] then None
    else
      match MakeDirs(d, Ancestors(e.name))
      case None => None
      case Some(d1) =>
        if e.name in d1 && d1[e.name].Folder? then None
        else Some(d1[e.name := File(e.data, stamp)])
  }

  datatype Written = Written(dir: Dir, outcome: Outcome)

  /** The loop over the archive's entries: stops at the first failing entry,
      keeping what the earlier entries wrote. */
  function WriteAll(d: Dir, es: seq<Entry>, stamp: Meta): Written
    decreases |es|
  {
    if es == [] then Written(d, Pass)
    else
      match WriteEntry(d, es[0], stamp)
      case None => Written(d, Fail("cannot write entry " + es[0].name))
      case Some(d1) => WriteAll(d1, es[1..], stamp)
  }

  /** `unpack_zip(src, dest)` on the directory that holds `dest`: `dest` is
      created when absent, before the archive is even read. */
  function UnpackSpec(area: Area, dest: string, archive: Bytes, env: Env, stamp: Meta): (r: (Area, Outcome))
    ensures dest in r.0 && (dest !in area ==> r.0[dest].Directory?)
  {
    var area1 := if dest in area then area else area[dest := Directory(map[])];
    match env.zipRead(archive)
    case None => (area1, Fail("invalid Zip archive"))
    case Some(es) =>
      match area1[dest]
      case PlainFile(_) => (area1, if es == [] then Pass else Fail("Not a directory"))
      case Directory(d) =>
        var w := WriteAll(d, es, stamp);
        (area1[dest := Directory(w.dir)], w.outcome)
  }

  /** Unpacking never removes anything that was in the destination. */
  lemma {:induction false} WriteAllKeeps(d: Dir, es: seq<Entry>, stamp: Meta)
    ensures d.Keys <= WriteAll(d, es, stamp).dir.Keys
    decreases |es|
  {
    if es != [] {
      match WriteEntry(d, es[0], stamp)
      case None =>
      case Some(d1) => WriteAllKeeps(d1, es[1..], stamp);
    }
  }

  lemma UnpackKeepsExisting(area: Area, dest: string, archive: Bytes, env: Env, stamp: Meta)
    ensures var (area', _) := UnpackSpec(area, dest, archive, env, stamp);
      && area.Keys + {dest} == area'.Keys
      && (forall k :: k in area && k != dest ==> area'[k] == area[k])
      && (dest in area && area[dest].Directory? ==>
            area'[dest].Directory? && area[dest].contents.Keys <= area'[dest].contents.Keys)
  {
    var area1 := if dest in area then area else area[dest := Directory(map[])];
    match env.zipRead(archive)
    case None =>
    case Some(es) =>
      match area1[dest]
      case PlainFile(_) =>
      case Directory(d) => WriteAllKeeps(d, es, stamp);
  }

  /** Writing entries with distinct bare file names over a destination where none
      of those names is a directory succeeds and leaves each name holding its
      entry's bytes; everything else in the destination is kept as it was. */
  lemma {:induction false} WriteAllFlat(d: Dir, es: seq<Entry>, stamp: Meta)
    requires forall e :: e in es ==> IsBaseName(e.name)
    requires forall i, j :: 0 <= i < j < |es| ==> es[i].name != es[j].name
    requires forall e :: e in es && e.name in d ==> d[e.name].File?
    ensures WriteAll(d, es, stamp).outcome == Pass
    ensures forall e :: e in es ==>
      e.name in WriteAll(d, es, stamp).dir && WriteAll(d, es, stamp).dir[e.name] == File(e.data, stamp)
    ensures forall p :: p in d && (forall e :: e in es ==> e.name != p) ==>
      p in WriteAll(d, es, stamp).dir && WriteAll(d, es, stamp).dir[p] == d[p]
    decreases |es|
  {
    if es != [] {
      var e := es[0];
      assert Ancestors(e.name) == {} by {
        forall i | 0 < i < |e.name| ensures e.name[i] != '/' {
          assert e.name[i] in e.name;
        }
      }
      assert !IsDirEntry(e) by {
        assert e.name[|e.name| - 1] in e.name;
      }
      var d1 := WriteEntry(d, e, stamp).value;
      assert d1 == d[e.name := File(e.data, stamp)];
      var rest := es[1..];
      forall x | x in rest && x.name in d1 ensures d1[x.name].File? {
        var k :| 1 <= k < |es| && es[k] == x;
        assert es[0].name != es[k].name;
      }
      WriteAllFlat(d1, rest, stamp);
      forall x | x in es
        ensures x.name in WriteAll(d, es, stamp).dir && WriteAll(d, es, stamp).dir[x.name] == File(x.data, stamp)
      {
        if x != e {
          var k :| 0 <= k < |es| && es[k] == x;
          assert k != 0;
          assert x in rest;
        } else {
          forall y | y in rest ensures y.name != e.name {
            var k :| 1 <= k < |es| && es[k] == y;
          }
        }
      }
    }
  }

  /** `unpack_zip` as the source writes it: create `dest` if absent, then write
      the entries in archive order, stopping at the first failure. */
  method UnpackZip(area: Area, dest: string, archive: Bytes, env: Env, stamp: Meta)
    returns (area': Area, r: Outcome)
    ensures (area', r) == UnpackSpec(area, dest, archive, env, stamp)
  {
    area' := area;
    if dest !in area' {
      area' := area'[dest := Directory(map[])];
    }
    var read := env.zipRead(archive);
    if read.None? {
      return area', Fail("invalid Zip archive");
    }
    var es := read.value;
    if area'[dest].PlainFile? {
      r := if es == [] then Pass else Fail("Not a directory");
      return;
    }
    var d := WriteEntries(area'[dest].contents, es, stamp);
    area' := area'[dest := Directory(d.dir)];
    r := d.outcome;
  }

  /** The extraction loop: the entries in archive order, stopping at the first
      one that cannot be written. */
  method WriteEntries(d0: Dir, es: seq<Entry>, stamp: Meta) returns (w: Written)
    ensures w == WriteAll(d0, es, stamp)
  {
    var d := d0;
    var i := 0;
    while i < |es|
      invariant 0 <= i <= |es|
      invariant WriteAll(d, es[i..], stamp) == WriteAll(d0, es, stamp)
    {
      assert es[i..][1..] == es[i + 1..];
      var next := WriteEntry(d, es[i], stamp);
      if next.None? {
        return Written(d, Fail("cannot write entry " + es[i].name));
      }
      d := next.value;
      i := i + 1;
    }
    assert es[i..] == [];
    w := Written(d, Pass);
  }

  /** The round trip of the source's test: unpacking what `create_zip` wrote
      restores every regular file of the source directory under its name with
      identical bytes, into a fresh destination or over an existing one that
      has no directory where a packed file goes. */
  lemma RoundTrip(src: Dir, order: seq<string>, env: Env, area: Area, dest: string, stamp: Meta)
    requires ZipSound(env)
    requires IsListing(src, order)
    requires dest in area ==> area[dest].Directory?
    requires dest in area ==> forall n :: n in src && src[n].File? && n in area[dest].contents ==> area[dest].contents[n].File?
    ensures var (area', r) := UnpackSpec(area, dest, env.zipWrite(Packed(src, order)), env, stamp);
      && r == Pass
      && area'[dest].Directory?
      && forall n :: n in src && IsBaseName(n) && src[n].File? ==>
           n in area'[dest].contents && area'[dest].contents[n] == File(src[n].data, stamp)
  {
    var es := Packed(src, order);
    assert env.zipRead(env.zipWrite(es)) == Some(es);
    PackedSound(src, order);
    PackedDistinct(src, order);
    PackedComplete(src, order);
    var d := if dest in area then area[dest].contents else map[];
    WriteAllFlat(d, es, stamp);
  }
}

=== FILE: client.dfy ===
/** The command-line client's commands as state changes of the machine it runs
    on: the current directory and `/tmp`. Server replies are inputs; the
    download reply is a function of the form sent, so that what was sent is
    part of the model. */
module Client {
  import opened Common
  import opened Archive
  import opened Scaffold

  /** The reply to `GET /tasks`: no reply at all, or a status and the body read
      as a task list when it is one. */
  datatype ListReply = ListSendFailed | ListReplied(status: int, tasks: Option<seq<Task>>)

  /** The reply to a POST: no reply at all, or a status and a body. */
  datatype Reply = SendFailed | Replied(status: int, body: Bytes)

  /** `format!("{}-{}", task.name, task.uuid)`: the task's name under `/tmp`. */
  function TaskKey(t: Task): string {
    t.name + "-" + t.uuid
  }

  /** The cached archive `/tmp/{name}-{uuid}.zip`. */
  function CacheZip(t: Task): string {
    TaskKey(t) + ".zip"
  }

  /** The working archive `{name}.zip` in the current directory. */
  function WorkingZip(t: Task): string {
    t.name + ".zip"
  }

  /** `fs::read(path).unwrap_or_else(|_| vec![])`. */
  function ReadOrEmpty(area: Area, p: string): Bytes {
    if p in area && area[p].PlainFile? then area[p].bytes else []
  }

  /** The download form: the task's uuid and name and a digest. */
  function DownloadForm(t: Task, digest: string): Form {
    map["uuid" := t.uuid, "name" := t.name, "md5" := digest]
  }

  // ---------------------------------------------------------------------
  // get_task_by_index
  // ---------------------------------------------------------------------

  /** The machine after a command: the current directory, `/tmp`, the outcome
      and whether `run_script` is called on the unpacked `run.sh`. */
  datatype Fetched = Fetched(cwd: Area, tmp: Area, outcome: Outcome, runs: bool)

  /** The end of a fetch: the working archive is unpacked into `/tmp/{key}`,
      then removed; the script runs only if unpacking succeeded (and only on Unix). */
  function Unpacked(cwd: Area, tmp: Area, t: Task, env: Env, stamp: Meta, unix: bool): Fetched
    requires WorkingZip(t) in cwd && cwd[WorkingZip(t)].PlainFile?
  {
    var (tmp', u) := UnpackSpec(tmp, TaskKey(t), cwd[WorkingZip(t)].bytes, env, stamp);
    Fetched(cwd - {WorkingZip(t)}, tmp', Pass, u.Pass? && unix)
  }

  /** The error a refused download reports: the reply's body, as text, after
      a fixed prefix. */
  function DownloadFailure(body: Bytes, env: Env): string {
    "Failed to download task " + env.text(body)
  }

  /** The error `fs::copy` reports when its source is not a regular file. */
  const NotRegularFile := "the source path is neither a regular file nor a symlink to a regular file"

  /** Fetching one selected task: the digest of the cached archive (or of no
      bytes) is sent, the working archive is created before the request, and
      the reply decides between the cache (304), an error (any other non-2xx)
      and the received archive, which also replaces the cache. */
  function FetchSpec(cwd: Area, tmp: Area, t: Task, server: Form -> Reply, env: Env, stamp: Meta, unix: bool): Fetched {
    var cache := CacheZip(t);
    var src := WorkingZip(t);
    var digest := env.md5(ReadOrEmpty(tmp, cache));
    if src in cwd && cwd[src].Directory? then Fetched(cwd, tmp, Fail("Is a directory"), false)
    else
      var cwd1 := cwd[src := PlainFile([])];
      match server(DownloadForm(t, digest))
      case SendFailed => Fetched(cwd1, tmp, Fail("error sending request"), false)
      case Replied(status, body) =>
        if status == StatusNotModified then
          if cache in tmp && tmp[cache].PlainFile? then
            Unpacked(cwd1[src := PlainFile(tmp[cache].bytes)], tmp, t, env, stamp, unix)
          else Fetched(cwd1, tmp, Fail(if cache in tmp then NotRegularFile else "No such file or directory"), false)
        else if !IsSuccess(status) then Fetched(cwd1, tmp, Fail(DownloadFailure(body, env)), false)
        else
          var cwd2 := cwd1[src := PlainFile(body)];
          if cache in tmp && tmp[cache].Directory? then Fetched(cwd2, tmp, Fail("Is a directory"), false)
          else Unpacked(cwd2, tmp[cache := PlainFile(body)], t, env, stamp, unix)
  }

  /** `get_task_by_index`: list the tasks, select one by index, fetch it. A
      failed or refused listing and an index out of range are only reported. */
  function GetSpec(cwd: Area, tmp: Area, list: ListReply, index: nat, server: Form -> Reply,
                   env: Env, stamp: Meta, unix: bool): Fetched {
    match list
    case ListSendFailed => Fetched(cwd, tmp, Pass, false)
    case ListReplied(status, tasks) =>
      if !IsSuccess(status) then Fetched(cwd, tmp, Pass, false)
      else if tasks.None? then Fetched(cwd, tmp, Fail("error decoding response body"), false)
      else if index >= |tasks.value| then Fetched(cwd, tmp, Pass, false)
      else FetchSpec(cwd, tmp, tasks.value[index], server, env, stamp, unix)
  }

  /** The task a listing selects, if any. */
  predicate Selects(list: ListReply, index: nat) {
    list.ListReplied? && IsSuccess(list.status) && list.tasks.Some? && index < |list.tasks.value|
  }

  /** When no task is selected no download request is made (the result is the
      same whatever the server would answer), and nothing on disk changes. */
  lemma GetWithoutSelection(cwd: Area, tmp: Area, list: ListReply, index: nat, s1: Form -> Reply, s2: Form -> Reply,
                            env: Env, stamp: Meta, unix: bool)
    requires !Selects(list, index)
    ensures var g := GetSpec(cwd, tmp, list, index, s1, env, stamp, unix);
      && g == GetSpec(cwd, tmp, list, index, s2, env, stamp, unix)
      && g.cwd == cwd && g.tmp == tmp && !g.runs
      && (g.outcome.Fail? <==> list.ListReplied? && IsSuccess(list.status) && list.tasks.None?)
  {
  }

  /** The one request a fetch makes carries the task's uuid and name and the
      digest of the cached archive, or of no bytes when there is no readable
      cache: two servers that answer that form alike give the same result. */
  lemma FetchSendsCacheDigest(cwd: Area, tmp: Area, t: Task, s1: Form -> Reply, s2: Form -> Reply,
                              env: Env, stamp: Meta, unix: bool)
    requires var form := DownloadForm(t, env.md5(ReadOrEmpty(tmp, CacheZip(t))));
      s1(form) == s2(form)
    ensures FetchSpec(cwd, tmp, t, s1, env, stamp, unix) == FetchSpec(cwd, tmp, t, s2, env, stamp, unix)
  {
  }

  /** The sent digest is the cache's exactly when the cache is a readable file. */
  lemma DigestSource(tmp: Area, t: Task)
    ensures CacheZip(t) in tmp && tmp[CacheZip(t)].PlainFile? ==> ReadOrEmpty(tmp, CacheZip(t)) == tmp[CacheZip(t)].bytes
    ensures !(CacheZip(t) in tmp && tmp[CacheZip(t)].PlainFile?) ==> ReadOrEmpty(tmp, CacheZip(t)) == []
  {
  }

  /** Only the unpack destination `/tmp/{key}` may differ between `tmp` and `tmp'`. */
  ghost predicate SameOutside(tmp: Area, tmp': Area, k: string) {
    (forall p :: p != k ==> (p in tmp <==> p in tmp'))
    && (forall p :: p != k && p in tmp ==> tmp'[p] == tmp[p])
  }

  /** On 304 the cache is only read: the archive unpacked is the cached one,
      nothing in `/tmp` but the unpack destination changes, and the script
      runs exactly when unpacking succeeded on Unix. With no readable cache
      the copy fails and nothing runs. */
  lemma FetchNotModified(cwd: Area, tmp: Area, t: Task, server: Form -> Reply, env: Env, stamp: Meta, unix: bool)
    requires !(WorkingZip(t) in cwd && cwd[WorkingZip(t)].Directory?)
    requires var reply := server(DownloadForm(t, env.md5(ReadOrEmpty(tmp, CacheZip(t)))));
      reply.Replied? && reply.status == StatusNotModified
    ensures var f := FetchSpec(cwd, tmp, t, server, env, stamp, unix);
      && SameOutside(tmp, f.tmp, TaskKey(t))
      && (CacheZip(t) in tmp && tmp[CacheZip(t)].PlainFile? ==>
            f.outcome == Pass
            && f.tmp == UnpackSpec(tmp, TaskKey(t), tmp[CacheZip(t)].bytes, env, stamp).0
            && f.cwd == cwd - {WorkingZip(t)}
            && (f.runs <==> unix && UnpackSpec(tmp, TaskKey(t), tmp[CacheZip(t)].bytes, env, stamp).1 == Pass))
      && (!(CacheZip(t) in tmp && tmp[CacheZip(t)].PlainFile?) ==>
            f.outcome == Fail(if CacheZip(t) in tmp then NotRegularFile else "No such file or directory")
            && f.tmp == tmp && f.cwd == cwd[WorkingZip(t) := PlainFile([])] && !f.runs)
  {
    var cache := CacheZip(t);
    if cache in tmp && tmp[cache].PlainFile? {
      var src := WorkingZip(t);
      var (tmp', _) := UnpackSpec(tmp, TaskKey(t), tmp[cache].bytes, env, stamp);
      UnpackKeepsExisting(tmp, TaskKey(t), tmp[cache].bytes, env, stamp);
      assert (cwd[src := PlainFile([])][src := PlainFile(tmp[cache].bytes)]) - {src} == cwd - {src};
    }
  }

  /** Any other status outside 2xx is an error that carries the reply's text:
      the cache is untouched and the working archive is left behind empty. */
  lemma FetchRefused(cwd: Area, tmp: Area, t: Task, server: Form -> Reply, env: Env, stamp: Meta, unix: bool)
    requires !(WorkingZip(t) in cwd && cwd[WorkingZip(t)].Directory?)
    requires var reply := server(DownloadForm(t, env.md5(ReadOrEmpty(tmp, CacheZip(t)))));
      reply.Replied? && reply.status != StatusNotModified && !IsSuccess(reply.status)
    ensures var f := FetchSpec(cwd, tmp, t, server, env, stamp, unix);
      var body := server(DownloadForm(t, env.md5(ReadOrEmpty(tmp, CacheZip(t))))).body;
      f == Fetched(cwd[WorkingZip(t) := PlainFile([])], tmp, Fail(DownloadFailure(body, env)), false)
  {
  }

  /** A 2xx reply's body becomes the cache (unless the cache path is a
      directory) and is what gets unpacked; the working archive is removed and
      the script runs exactly when unpacking succeeded on Unix. */
  lemma FetchReceived(cwd: Area, tmp: Area, t: Task, server: Form -> Reply, env: Env, stamp: Meta, unix: bool)
    requires !(WorkingZip(t) in cwd && cwd[WorkingZip(t)].Directory?)
    requires !(CacheZip(t) in tmp && tmp[CacheZip(t)].Directory?)
    requires var reply := server(DownloadForm(t, env.md5(ReadOrEmpty(tmp, CacheZip(t)))));
      reply.Replied? && IsSuccess(reply.status)
    ensures var body := server(DownloadForm(t, env.md5(ReadOrEmpty(tmp, CacheZip(t))))).body;
      var f := FetchSpec(cwd, tmp, t, server, env, stamp, unix);
      var (tmp', u) := UnpackSpec(tmp[CacheZip(t) := PlainFile(body)], TaskKey(t), body, env, stamp);
      && f.outcome == Pass
      && f.cwd == cwd - {WorkingZip(t)}
      && f.tmp == tmp'
      && CacheZip(t) in f.tmp && f.tmp[CacheZip(t)] == PlainFile(body)
      && (f.runs <==> unix && u == Pass)
  {
    var body := server(DownloadForm(t, env.md5(ReadOrEmpty(tmp, CacheZip(t))))).body;
    var src := WorkingZip(t);
    var tmp1 := tmp[CacheZip(t) := PlainFile(body)];
    UnpackKeepsExisting(tmp1, TaskKey(t), body, env, stamp);
    assert TaskKey(t) != CacheZip(t) by { assert |CacheZip(t)| == |TaskKey(t)| + 4; }
    assert (cwd[src := PlainFile([])][src := PlainFile(body)]) - {src} == cwd - {src};
  }

  // ---------------------------------------------------------------------
  // clean_cache
  // ---------------------------------------------------------------------

  /** The position of the last '.' in `s`, if any. */
  function LastDot(s: string): (r: Option<nat>)
    ensures r.Some? ==> r.value < |s| && s[r.value] == '.' && forall j :: r.value < j < |s| ==> s[j] != '.'
    ensures r.None? ==> forall j :: 0 <= j < |s| ==> s[j] != '.'
  {
    if s == [] then None
    else if s[|s| - 1] == '.' then Some(|s| - 1)
    else LastDot(s[..|s| - 1])
  }

  /** `Path::file_stem` of a one-component name other than "..": the name up to
      its last '.', unless that '.' is its first character. */
  function FileStem(name: string): string {
    match LastDot(name)
    case None => name
    case Some(i) => if i == 0 then name else name[..i]
  }

  /** `Path::with_extension` on a one-component name. */
  function WithExtension(name: string, ext: string): string {
    FileStem(name) + "." + ext
  }

  /** The archive `clean_cache` removes is the one `get_task_by_index` caches
      exactly when the key has no '.' after its first character. */
  lemma CleanZipIsCacheZip(t: Task)
    ensures WithExtension(TaskKey(t), "zip") == CacheZip(t) <==>
      forall i :: 1 <= i < |TaskKey(t)| ==> TaskKey(t)[i] != '.'
  {
    var k := TaskKey(t);
    match LastDot(k)
    case None =>
    case Some(i) =>
      if i > 0 {
        assert |WithExtension(k, "zip")| < |CacheZip(t)|;
      }
  }

  /** One task's cache: the directory `/tmp/{key}` is removed when present
      (a plain file there is an error), then `/tmp/{key}` with its extension
      replaced by `zip` (a directory there is an error). */
  function CleanOne(tmp: Area, t: Task): (Area, Outcome) {
    var dir := TaskKey(t);
    if dir in tmp && tmp[dir].PlainFile? then (tmp, Fail("Not a directory"))
    else
      var tmp1 := tmp - {dir};
      var z := WithExtension(dir, "zip");
      if z in tmp1 && tmp1[z].Directory? then (tmp1, Fail("Is a directory"))
      else (tmp1 - {z}, Pass)
  }

  /** The loop over the selected tasks, stopping at the first error. */
  function CleanAll(tmp: Area, ts: seq<Task>): (Area, Outcome)
    decreases |ts|
  {
    if ts == [] then (tmp, Pass)
    else
      var (tmp1, o) := CleanOne(tmp, ts[0]);
      if o.Fail? then (tmp1, o) else CleanAll(tmp1, ts[1..])
  }

  /** The tasks `clean_cache` cleans. */
  function Selected(ts: seq<Task>, index: Option<nat>): seq<Task>
    requires index.Some? ==> index.value < |ts|
  {
    if index.Some? then [ts[index.value]] else ts
  }

  /** `clean_cache`: list the tasks (any failure is an error), check the index,
      then clean the selected tasks. */
  function CleanSpec(tmp: Area, list: ListReply, index: Option<nat>): (Area, Outcome) {
    match list
    case ListSendFailed => (tmp, Fail("error sending request"))
    case ListReplied(_, None) => (tmp, Fail("error decoding response body"))
    case ListReplied(_, Some(ts)) =>
      if index.Some? && index.value >= |ts| then (tmp, Fail("Task index out of range"))
      else CleanAll(tmp, Selected(ts, index))
  }

  /** The two paths `clean_cache` removes for a task. */
  function CleanTargets(t: Task): set<string> {
    {TaskKey(t), WithExtension(TaskKey(t), "zip")}
  }

  /** A task's paths have the kinds `clean_cache` can remove (or are absent). */
  predicate Cleanable(tmp: Area, t: Task) {
    var dir := TaskKey(t);
    var z := WithExtension(dir, "zip");
    !(dir in tmp && tmp[dir].PlainFile?) && !(z != dir && z in tmp && tmp[z].Directory?)
  }

  /** Cleaning only removes: every remaining path held what it held before, and
      every path that is no selected task's target remains; on success all the
      targets are gone. Missing directories and archives are not errors: when
      every present target has the right kind, cleaning succeeds. */
  lemma {:induction false} CleanAllEffect(tmp: Area, ts: seq<Task>)
    ensures var (tmp', o) := CleanAll(tmp, ts);
      && (forall p :: p in tmp' ==> p in tmp && tmp'[p] == tmp[p])
      && (forall p :: p in tmp && (forall t :: t in ts ==> p !in CleanTargets(t)) ==> p in tmp')
      && (o.Pass? ==> forall t, p :: t in ts && p in CleanTargets(t) ==> p !in tmp')
      && ((forall t :: t in ts ==> Cleanable(tmp, t)) ==> o.Pass?)
    decreases |ts|
  {
    if ts != [] {
      var (tmp1, o1) := CleanOne(tmp, ts[0]);
      if o1.Pass? {
        CleanAllEffect(tmp1, ts[1..]);
        var (tmp', o) := CleanAll(tmp, ts);
        forall p | p in tmp && (forall t :: t in ts ==> p !in CleanTargets(t)) ensures p in tmp' {
          assert p !in CleanTargets(ts[0]);
          forall t | t in ts[1..] ensures p !in CleanTargets(t) { assert t in ts; }
        }
        if o.Pass? {
          forall t, p | t in ts && p in CleanTargets(t) ensures p !in tmp' {
            if t != ts[0] { assert t in ts[1..]; }
          }
        }
        if forall t :: t in ts ==> Cleanable(tmp, t) {
          forall t | t in ts[1..] ensures Cleanable(tmp1, t) { assert t in ts; }
        }
      } else {
        assert ts[0] in ts;
      }
    }
  }

  /** An index out of range fails before anything is removed; otherwise only
      the selected task's paths (or all tasks' paths) are candidates. */
  lemma CleanSpecEffect(tmp: Area, ts: seq<Task>, index: Option<nat>)
    ensures var (tmp', o) := CleanSpec(tmp, ListReplied(StatusOk, Some(ts)), index);
      && (index.Some? && index.value >= |ts| ==> tmp' == tmp && o == Fail("Task index out of range"))
      && (index.Some? && index.value < |ts| ==>
            (forall p :: p in tmp' ==> p in tmp && tmp'[p] == tmp[p] && (o.Pass? ==> p !in CleanTargets(ts[index.value])))
            && (forall p :: p in tmp && p !in CleanTargets(ts[index.value]) ==> p in tmp'))
  {
    if index.Some? && index.value < |ts| {
      var sel := [ts[index.value]];
      CleanAllEffect(tmp, sel);
    }
  }

  // ---------------------------------------------------------------------
  // delete_task
  // ---------------------------------------------------------------------

  /** The delete form: the task's uuid and name. */
  function DeleteForm(t: Task): Form {
    map["uuid" := t.uuid, "name" := t.name]
  }

  /** `delete_task`: list the tasks, check the index, ask the server to delete
      the selected task and, when it agrees, run `clean_cache` with the same
      index — which lists the tasks again (`second`). */
  function DeleteSpec(tmp: Area, first: ListReply, index: nat, server: Form -> Reply, second: ListReply): (Area, Outcome) {
    match first
    case ListSendFailed => (tmp, Fail("error sending request"))
    case ListReplied(_, None) => (tmp, Fail("error decoding response body"))
    case ListReplied(_, Some(ts)) =>
      if index >= |ts| then (tmp, Fail("Task index out of range"))
      else
        match server(DeleteForm(ts[index]))
        case SendFailed => (tmp, Fail("error sending request"))
        case Replied(status, _) =>
          if IsSuccess(status) then CleanSpec(tmp, second, Some(index)) else (tmp, Pass)
  }

  /** After the server has deleted the selected task, the second listing is the
      first without it, so the index now names the task after it: deleting the
      last task reports "Task index out of range" and cleans nothing, deleting
      any other cleans the next task's cache instead of its own. */
  lemma DeleteCleansShiftedTask(tmp: Area, ts: seq<Task>, index: nat, server: Form -> Reply)
    requires index < |ts|
    requires server(DeleteForm(ts[index])).Replied? && IsSuccess(server(DeleteForm(ts[index])).status)
    ensures var second := ListReplied(StatusOk, Some(ts[..index] + ts[index + 1..]));
      var (tmp', o) := DeleteSpec(tmp, ListReplied(StatusOk, Some(ts)), index, server, second);
      && (index == |ts| - 1 ==> tmp' == tmp && o == Fail("Task index out of range"))
      && (index < |ts| - 1 ==> (tmp', o) == CleanAll(tmp, [ts[index + 1]]))
  {
    var rest := ts[..index] + ts[index + 1..];
    assert |rest| == |ts| - 1;
    if index < |ts| - 1 {
      assert rest[index] == ts[index + 1];
    }
  }

  /** A concrete case: with tasks `a` and `b` listed, `delete 1` is reported as
      failed although the server deleted `b`, and `b`'s cache stays. */
  lemma DeleteLastTaskExample(tmp: Area, a: Task, b: Task, server: Form -> Reply)
    requires server(DeleteForm(b)) == Replied(StatusOk, [])
    requires TaskKey(b) in tmp
    ensures var (tmp', o) := DeleteSpec(tmp, ListReplied(StatusOk, Some([a, b])), 1, server, ListReplied(StatusOk, Some([a])));
      o == Fail("Task index out of range") && TaskKey(b) in tmp'
  {
    DeleteCleansShiftedTask(tmp, [a, b], 1, server);
    assert [a, b][..1] + [a, b][2..] == [a];
  }

  /** Cleaning the task the user selected, as the command evidently intends:
      the index is applied to the listing the deletion was made from. */
  function DeleteIntended(tmp: Area, first: ListReply, index: nat, server: Form -> Reply): (Area, Outcome) {
    match first
    case ListSendFailed => (tmp, Fail("error sending request"))
    case ListReplied(_, None) => (tmp, Fail("error decoding response body"))
    case ListReplied(_, Some(ts)) =>
      if index >= |ts| then (tmp, Fail("Task index out of range"))
      else
        match server(DeleteForm(ts[index]))
        case SendFailed => (tmp, Fail("error sending request"))
        case Replied(status, _) =>
          if IsSuccess(status) then CleanIntended(tmp, ts[index]) else (tmp, Pass)
  }

  /** After a deletion the server agreed to, the deleted task's cache directory
      and cached archive are gone and nothing else in `/tmp` changed. */
  lemma DeleteIntendedCleansDeleted(tmp: Area, ts: seq<Task>, index: nat, server: Form -> Reply)
    requires index < |ts|
    requires server(DeleteForm(ts[index])).Replied? && IsSuccess(server(DeleteForm(ts[index])).status)
    requires CleanableIntended(tmp, ts[index])
    ensures var (tmp', o) := DeleteIntended(tmp, ListReplied(StatusOk, Some(ts)), index, server);
      && o == Pass
      && tmp' == tmp - {TaskKey(ts[index]), CacheZip(ts[index])}
  {
    CleanIntendedEffect(tmp, ts[index]);
  }

  // ---------------------------------------------------------------------
  // The cache archive clean_cache misses
  // ---------------------------------------------------------------------

  /** When the key has a '.' after its first character, cleaning leaves the
      cached archive in place (and removes `/tmp/<stem>.zip` instead). */
  lemma CleanOneMissesDottedCache(tmp: Area, t: Task)
    requires exists i :: 1 <= i < |TaskKey(t)| && TaskKey(t)[i] == '.'
    requires CacheZip(t) in tmp
    ensures CacheZip(t) in CleanOne(tmp, t).0 && CleanOne(tmp, t).0[CacheZip(t)] == tmp[CacheZip(t)]
  {
    CleanZipIsCacheZip(t);
    assert TaskKey(t) != CacheZip(t) by { assert |CacheZip(t)| == |TaskKey(t)| + 4; }
  }

  /** A concrete case: the task "v1.2" with uuid "u" is cached as
      `/tmp/v1.2-u.zip`, but cleaning it removes `/tmp/v1.zip`. */
  lemma DottedNameExample()
    ensures WithExtension(TaskKey(Task("u", "v1.2", "")), "zip") == "v1.zip"
    ensures CacheZip(Task("u", "v1.2", "")) == "v1.2-u.zip"
  {
    assert TaskKey(Task("u", "v1.2", "")) == "v1.2-u";
    assert LastDot("v1.2-u") == Some(2) by {
      assert "v1.2-u"[..5] == "v1.2-" && "v1.2-"[..4] == "v1.2" && "v1.2"[..3] == "v1.";
    }
  }

  /** One task's cache cleaned by the paths `get_task_by_index` writes. */
  function CleanIntended(tmp: Area, t: Task): (Area, Outcome) {
    var dir := TaskKey(t);
    if dir in tmp && tmp[dir].PlainFile? then (tmp, Fail("Not a directory"))
    else
      var tmp1 := tmp - {dir};
      if CacheZip(t) in tmp1 && tmp1[CacheZip(t)].Directory? then (tmp1, Fail("Is a directory"))
      else (tmp1 - {CacheZip(t)}, Pass)
  }

  predicate CleanableIntended(tmp: Area, t: Task) {
    !(TaskKey(t) in tmp && tmp[TaskKey(t)].PlainFile?) && !(CacheZip(t) in tmp && tmp[CacheZip(t)].Directory?)
  }

  /** The intended cleaning removes exactly the task's cache directory and
      cached archive, for every task name. */
  lemma CleanIntendedEffect(tmp: Area, t: Task)
    requires CleanableIntended(tmp, t)
    ensures CleanIntended(tmp, t) == (tmp - {TaskKey(t), CacheZip(t)}, Pass)
  {
    assert TaskKey(t) != CacheZip(t) by { assert |CacheZip(t)| == |TaskKey(t)| + 4; }
    assert tmp - {TaskKey(t)} - {CacheZip(t)} == tmp - {TaskKey(t), CacheZip(t)};
  }

  // ---------------------------------------------------------------------
  // upload_task
  // ---------------------------------------------------------------------

  /** The multipart upload: the file name declared and the archive's bytes. */
  datatype UploadRequest = UploadRequest(fileName: string, data: Bytes)

  datatype Posted = Posted(cwd: Area, outcome: Outcome, sent: Option<UploadRequest>)

  /** `upload_task` for the directory `path` of the current directory: the
      checks, then `{name}.zip` is built, sent as `{name}-{uuid}` and removed
      whatever the server answers. */
  function UploadSpec(cwd: Area, path: string, order: seq<string>, env: Env, unix: bool): Posted {
    if path !in cwd then Posted(cwd, Fail("File not found at " + path), None)
    else if !cwd[path].Directory? || "config.toml" !in cwd[path].contents then
      Posted(cwd, Fail("config.toml not found in the task directory"), None)
    else
      var dir := cwd[path].contents;
      match dir["config.toml"]
      case Folder => Posted(cwd, Fail("Is a directory"), None)
      case File(data, _) =>
        match env.parseTask(data)
        case NotUtf8 => Posted(cwd, Fail("stream did not contain valid UTF-8"), None)
        case BadToml(m) => Posted(cwd, Fail(m), None)
        case Parsed(t) =>
          if (if unix then "run.sh" else "run.bat") !in dir then
            Posted(cwd, Fail("run.sh or run.bat not found in the task directory"), None)
          else
            var zip := t.name + ".zip";
            var (built, o) := CreateZipSpec(cwd, path, zip, order, env);
            if o.Fail? then Posted(built, o, None)
            else Posted(built - {zip}, Pass, Some(UploadRequest(TaskKey(t), built[zip].bytes)))
  }

  /** The task directory passes the checks that come before the archive is built. */
  predicate UploadReady(cwd: Area, path: string, env: Env, unix: bool) {
    && path in cwd && cwd[path].Directory?
    && "config.toml" in cwd[path].contents && cwd[path].contents["config.toml"].File?
    && env.parseTask(cwd[path].contents["config.toml"].data).Parsed?
    && (if unix then "run.sh" else "run.bat") in cwd[path].contents
  }

  /** The checks come in the order: path, `config.toml`, its parse, the script;
      a failed check sends nothing and changes nothing. Once the checks pass
      and the archive is built, it is sent under `{name}-{uuid}` with exactly
      the bytes `create_zip` wrote, and `{name}.zip` is gone afterwards. */
  lemma UploadChecks(cwd: Area, path: string, order: seq<string>, env: Env, unix: bool)
    ensures var p := UploadSpec(cwd, path, order, env, unix);
      && (!UploadReady(cwd, path, env, unix) ==> p.cwd == cwd && p.outcome.Fail? && p.sent.None?)
      && (path !in cwd ==> p.outcome == Fail("File not found at " + path))
      && (path in cwd && !(cwd[path].Directory? && "config.toml" in cwd[path].contents) ==>
            p.outcome == Fail("config.toml not found in the task directory"))
      && (path in cwd && cwd[path].Directory? && "config.toml" in cwd[path].contents ==>
            var manifest := cwd[path].contents["config.toml"];
            && (manifest.Folder? ==> p.outcome == Fail("Is a directory"))
            && (manifest.File? && env.parseTask(manifest.data).NotUtf8? ==>
                  p.outcome == Fail("stream did not contain valid UTF-8"))
            && (manifest.File? && env.parseTask(manifest.data).BadToml? ==>
                  p.outcome == Fail(env.parseTask(manifest.data).msg))
            && (manifest.File? && env.parseTask(manifest.data).Parsed?
                && (if unix then "run.sh" else "run.bat") !in cwd[path].contents ==>
                  p.outcome == Fail("run.sh or run.bat not found in the task directory")))
      && (UploadReady(cwd, path, env, unix) ==>
            var t := env.parseTask(cwd[path].contents["config.toml"].data).task;
            var zip := t.name + ".zip";
            && (zip in cwd && cwd[zip].Directory? ==> p == Posted(cwd, Fail("Is a directory"), None))
            && (!(zip in cwd && cwd[zip].Directory?) ==>
                  && p.outcome == Pass
                  && p.cwd == cwd - {zip}
                  && p.sent == Some(UploadRequest(TaskKey(t), env.zipWrite(Packed(cwd[path].contents, order))))))
  {
    if UploadReady(cwd, path, env, unix) {
      var t := env.parseTask(cwd[path].contents["config.toml"].data).task;
      var zip := t.name + ".zip";
      if !(zip in cwd && cwd[zip].Directory?) {
        assert zip != path;
        assert cwd[zip := PlainFile([])][zip := PlainFile(env.zipWrite(Packed(cwd[path].contents, order)))] - {zip}
          == cwd - {zip};
      }
    }
  }

  // ---------------------------------------------------------------------
  // create_new_task
  // ---------------------------------------------------------------------

  /** A freshly created task passes every check of `upload_task` once its
      manifest parses back to the task it describes, and is then sent under
      `{name}-{uuid}`. */
  lemma NewTaskUploads(cwd: Area, name: string, uuid: string, unix: bool, stamp: Meta, order: seq<string>, env: Env)
    requires name !in cwd
    requires !(name + ".zip" in cwd && cwd[name + ".zip"].Directory?)
    requires env.parseTask(Utf8(ConfigText(uuid, name))) == Parsed(Task(uuid, name, "This is an example task"))
    ensures var (cwd', o) := NewTaskSpec(cwd, name, uuid, unix, stamp);
      && o == Pass
      && UploadReady(cwd', name, env, unix)
      && UploadSpec(cwd', name, order, env, unix).sent.Some?
      && UploadSpec(cwd', name, order, env, unix).sent.value.fileName == name + "-" + uuid
  {
    var (cwd', _) := NewTaskSpec(cwd, name, uuid, unix, stamp);
    var zip := name + ".zip";
    assert zip != name by { assert |zip| == |name| + 4; }
    assert zip in cwd' ==> zip in cwd && cwd'[zip] == cwd[zip];
    UploadChecks(cwd', name, order, env, unix);
  }
}

=== FILE: common.dfy ===
/** Values shared by the server, the client and the archive helpers:
    bytes, the task record, the two-level filesystem model, zip entries,
    the environment functions the model leaves uninterpreted, and the
    string helpers the Rust standard library provides (trim, ASCII
    case-insensitive comparison, UTF-8 encoding). */
module Common {

  newtype Byte = x: int | 0 <= x < 256
  type Bytes = seq<Byte>

  datatype Option<T> = None | Some(value: T)

  /** A value, or the message of the error that prevented it. */
  datatype Result<T> = Ok(value: T) | Err(msg: string)

  /** The outcome of an operation that returns nothing on success. */
  datatype Outcome = Pass | Fail(msg: string)

  /** `utils::Task`: the manifest read from `config.toml` and the record kept by the registry. */
  datatype Task = Task(uuid: string, name: string, description: string)

  /** A record's identity: the pair the registry queries by. */
  predicate HasKey(t: Task, uuid: string, name: string) {
    t.uuid == uuid && t.name == name
  }

  // ---------------------------------------------------------------------
  // Filesystem model
  // ---------------------------------------------------------------------

  /** Permissions and modification time of a file on disk. */
  datatype Meta = Meta(mode: int, mtime: int)

  /** A node inside a directory, keyed by its path relative to that directory. */
  datatype Node = File(data: Bytes, meta: Meta) | Folder

  type Dir = map<string, Node>

  /** A child of a directory the program works in (`./tasks`, `/tmp`, the current directory). */
  datatype Top = PlainFile(bytes: Bytes) | Directory(contents: Dir)

  type Area = map<string, Top>

  /** True when `name` can be the file name of a direct child: non-empty, no separator. */
  predicate IsBaseName(name: string) {
    name != [] && '/' !in name
  }

  // ---------------------------------------------------------------------
  // Zip entries
  // ---------------------------------------------------------------------

  datatype Compression = Stored | Zstd

  /** A zip timestamp in the MS-DOS fields the zip crate keeps. */
  datatype ZipTime = ZipTime(year: int, month: int, day: int, hour: int, minute: int, second: int)

  /** `zip::DateTime::default()`: 1980-01-01 00:00:00, the earliest MS-DOS date. */
  const DefaultZipTime := ZipTime(1980, 1, 1, 0, 0, 0)

  /** The Unix mode 0o755. */
  const Mode755 := 0x1ED

  /** One archive entry: its name, its content and the options it was written with. */
  datatype Entry = Entry(name: string, data: Bytes, compression: Compression, mode: int, mtime: ZipTime)

  /** The zip crate treats an entry whose name ends with '/' as a directory. */
  predicate IsDirEntry(e: Entry) {
    |e.name| > 0 && e.name[|e.name| - 1] == '/'
  }

  /** Reading a `config.toml` into a task: `read_to_string` fails on bytes that
      are not UTF-8 (an I/O error); `toml::from_str` then fails or yields the task. */
  datatype Parsed = NotUtf8 | BadToml(msg: string) | Parsed(task: Task)

  /** The functions the model does not interpret: the MD5 digest rendered as
      lowercase hex, the zip container encoding and decoding, the parse of
      a `config.toml` into a task, and `Response::text`, the decoding of a
      reply body as text. */
  datatype Env = Env(
    md5: Bytes -> string,
    zipWrite: seq<Entry> -> Bytes,
    zipRead: Bytes -> Option<seq<Entry>>,
    parseTask: Bytes -> Parsed,
    text: Bytes -> string)

  /** The zip reader gives back exactly the entries the writer was given. */
  ghost predicate ZipSound(env: Env) {
    forall es: seq<Entry> {:trigger env.zipWrite(es)} :: env.zipRead(env.zipWrite(es)) == Some(es)
  }

  // ---------------------------------------------------------------------
  // HTTP
  // ---------------------------------------------------------------------

  /** The fields of a url-encoded form, by name. */
  type Form = map<string, string>

  const StatusOk := 200
  const StatusNotModified := 304
  const StatusUnauthorized := 401
  const StatusInternalServerError := 500

  /** `StatusCode::is_success`: a 2xx status. */
  predicate IsSuccess(status: int) {
    200 <= status < 300
  }

  // ---------------------------------------------------------------------
  // String helpers
  // ---------------------------------------------------------------------

  /** `char::is_whitespace`: the Unicode White_Space property. */
  predicate IsWhitespace(c: char) {
    ('\U{0009}' <= c <= '\U{000D}') || c == ' ' || c == '\U{0085}' || c == '\U{00A0}'
    || c == '\U{1680}' || ('\U{2000}' <= c <= '\U{200A}') || c == '\U{2028}' || c == '\U{2029}'
    || c == '\U{202F}' || c == '\U{205F}' || c == '\U{3000}'
  }

  function TrimStart(s: string): string {
    if s != [] && IsWhitespace(s[0]) then TrimStart(s[1..]) else s
  }

  function TrimEnd(s: string): string {
    if s != [] && IsWhitespace(s[|s| - 1]) then TrimEnd(s[..|s| - 1]) else s
  }

  /** `str::trim`: leading and trailing whitespace removed. */
  function Trim(s: string): string {
    TrimEnd(TrimStart(s))
  }

  function AsciiLower(c: char): char {
    if 'A' <= c <= 'Z' then (c as int + 32) as char else c
  }

  /** `str::eq_ignore_ascii_case`. */
  predicate EqIgnoreAsciiCase(a: string, b: string) {
    |a| == |b| && (a == [] || (AsciiLower(a[0]) == AsciiLower(b[0]) && EqIgnoreAsciiCase(a[1..], b[1..])))
  }

  /** UTF-8 encoding of one scalar value. */
  function Utf8Char(c: char): (r: Bytes)
  {
    var n := c as int;
    if n < 0x80 then [n as Byte]
    else if n < 0x800 then [(0xC0 + n / 0x40) as Byte, (0x80 + n % 0x40) as Byte]
    else if n < 0x10000 then
      [(0xE0 + n / 0x1000) as Byte, (0x80 + (n / 0x40) % 0x40) as Byte, (0x80 + n % 0x40) as Byte]
    else
      [(0xF0 + n / 0x40000) as Byte, (0x80 + (n / 0x1000) % 0x40) as Byte,
       (0x80 + (n / 0x40) % 0x40) as Byte, (0x80 + n % 0x40) as Byte]
  }

  /** The bytes `fs::write` stores for a Rust string. */
  function Utf8(s: string): (r: Bytes)
  {
    if s == [] then [] else Utf8Char(s[0]) + Utf8(s[1..])
  }
}

=== FILE: exec.dfy ===
/** The decisions of `run_script`: the confirmation answer that gates the
    script, the loop relaying the user's lines to the script's standard input,
    and how the outcome is reported. The process itself is an input: whether
    it could be started, how many writes its input pipe accepts, and its exit
    status. */
module Exec {
  import opened Common

  /** The answer to "Do you want to execute this script?" lets it run. */
  predicate Confirmed(answer: string) {
    EqIgnoreAsciiCase(Trim(answer), "y")
  }

  /** A relayed line that ends the relay instead of being forwarded. */
  predicate IsQuit(line: string) {
    EqIgnoreAsciiCase(Trim(line), ":q")
  }

  /** A one-letter answer compares equal to "y" ignoring ASCII case exactly when
      it is "y" or "Y"; likewise for ":q". */
  lemma {:induction false} ConfirmedExactly(answer: string)
    ensures Confirmed(answer) <==> Trim(answer) == "y" || Trim(answer) == "Y"
  {
    var t := Trim(answer);
    if |t| == 1 {
      assert EqIgnoreAsciiCase(t[1..], "y"[1..]);
      assert Confirmed(answer) <==> AsciiLower(t[0]) == 'y';
      assert t == [t[0]];
    }
  }

  lemma {:induction false} IsQuitExactly(line: string)
    ensures IsQuit(line) <==> Trim(line) == ":q" || Trim(line) == ":Q"
  {
    var t := Trim(line);
    if |t| == 2 {
      assert EqIgnoreAsciiCase(t[2..], ":q"[2..]);
      assert EqIgnoreAsciiCase(t[1..], ":q"[1..]) <==> AsciiLower(t[1]) == 'q';
      assert IsQuit(line) <==> AsciiLower(t[0]) == ':' && AsciiLower(t[1]) == 'q';
      assert t == [t[0], t[1]];
    }
  }

  /** `read_line` keeps the line terminator; surrounding whitespace does not
      matter to the confirmation, other words are refusals. */
  lemma ConfirmationExamples()
    ensures Confirmed("y\n") && Confirmed("  Y \r\n")
    ensures !Confirmed("yes\n") && !Confirmed("\n") && !Confirmed("n\n")
  {
    ConfirmedExactly("y\n");
    ConfirmedExactly("  Y \r\n");
    ConfirmedExactly("yes\n");
    ConfirmedExactly("\n");
    ConfirmedExactly("n\n");
    assert Trim("y\n") == "y";
    assert TrimStart("  Y \r\n") == TrimStart(" Y \r\n") == TrimStart("Y \r\n") == "Y \r\n";
    assert "Y \r\n"[..3] == "Y \r" && "Y \r"[..2] == "Y " && "Y "[..1] == "Y";
    assert TrimEnd("Y \r\n") == TrimEnd("Y \r") == TrimEnd("Y ") == TrimEnd("Y") == "Y";
    assert Trim("yes\n") == "yes";
    assert Trim("\n") == "";
    assert Trim("n\n") == "n";
  }

  // ---------------------------------------------------------------------
  // The relay loop
  // ---------------------------------------------------------------------

  /** Why the relay stopped: a quit line, a write the pipe refused, or the end
      of the lines given (the source then keeps reading empty input). */
  datatype Stop = Quit | WriteFailed | EndOfInput

  /** How many of the user's lines were written to the script's input, and why
      the relay stopped. The lines written are the first `count`, verbatim. */
  datatype Relayed = Relayed(count: nat, stop: Stop)

  /** The relay from the `i`-th of the lines the user types (each as
      `read_line` returns it, terminator included), when the script's input
      accepts `writable` writes before a write fails. The contract
      characterises the result: every line before the stop is forwarded and
      none of them is a quit line; the stop reason says what the next line or
      the pipe did. */
  function RelayFrom(lines: seq<string>, i: nat, writable: nat): (r: Relayed)
    requires i <= |lines| && i <= writable
    ensures i <= r.count <= |lines| && r.count <= writable
    ensures forall j :: i <= j < r.count ==> !IsQuit(lines[j])
    ensures r.stop == Quit ==> r.count < |lines| && IsQuit(lines[r.count])
    ensures r.stop == WriteFailed ==> r.count == writable < |lines| && !IsQuit(lines[r.count])
    ensures r.stop == EndOfInput ==> r.count == |lines|
    decreases |lines| - i
  {
    if i == |lines| then Relayed(i, EndOfInput)
    else if IsQuit(lines[i]) then Relayed(i, Quit)
    else if i == writable then Relayed(i, WriteFailed)
    else RelayFrom(lines, i + 1, writable)
  }

  /** The relay over all the lines. */
  function Relay(lines: seq<string>, writable: nat): Relayed {
    RelayFrom(lines, 0, writable)
  }

  /** The relay is decided by the first quit line and the pipe's capacity alone:
      with `q` the position of the first quit line (or the number of lines),
      it forwards `min(q, writable)` lines. */
  lemma {:induction false} RelayFirstQuit(lines: seq<string>, writable: nat, q: nat)
    requires q <= |lines|
    requires forall j :: 0 <= j < q ==> !IsQuit(lines[j])
    requires q < |lines| ==> IsQuit(lines[q])
    ensures var r := Relay(lines, writable);
      && r.count == (if q <= writable then q else writable)
      && (q <= writable && q < |lines| <==> r.stop == Quit)
      && (writable < q <==> r.stop == WriteFailed)
  {
  }

  /** The relay loop: read a line, stop on a quit line, otherwise write it. */
  method RelayLines(lines: seq<string>, writable: nat) returns (forwarded: seq<string>, stop: Stop)
    ensures forwarded == lines[..Relay(lines, writable).count]
    ensures stop == Relay(lines, writable).stop
  {
    forwarded := [];
    var i := 0;
    while true
      invariant 0 <= i <= |lines| && i <= writable
      invariant forwarded == lines[..i]
      invariant RelayFrom(lines, i, writable) == Relay(lines, writable)
      decreases |lines| - i
    {
      if i == |lines| {
        return forwarded, EndOfInput;
      }
      var input := lines[i];
      if IsQuit(input) {
        return forwarded, Quit;
      }
      if i == writable {
        return forwarded, WriteFailed;
      }
      forwarded := forwarded + [input];
      assert lines[..i + 1] == lines[..i] + [input];
      i := i + 1;
    }
  }

  // ---------------------------------------------------------------------
  // run_script
  // ---------------------------------------------------------------------

  /** The script file as `run_script` reads it: missing, unreadable as text
      (a directory, or bytes that are not UTF-8), or its text. */
  datatype ScriptFile = Missing | Unreadable | Script(text: string)

  /** What `run_script` ends with. `Panicked` is an `expect` failing; `Skipped`
      is a confirmed run on a platform that is not Unix, where nothing is
      spawned; `Finished` reports whether the script exited successfully. */
  datatype Run = Panicked(msg: string) | Cancelled | Skipped | Finished(success: bool)

  /** `run_script`: show the script, ask, and on "y" spawn `sh <script>`, relay
      input while it runs, and report its exit status (`None` when it was
      ended by a signal). */
  function RunScript(script: ScriptFile, answer: string, unix: bool, spawned: bool, exitCode: Option<int>): (r: Run)
    ensures r.Finished? <==> script.Script? && Confirmed(answer) && unix && spawned
    ensures r.Finished? ==> (r.success <==> exitCode == Some(0))
    ensures r == Cancelled <==> script.Script? && !Confirmed(answer)
    ensures script.Missing? ==> r == Panicked("Failed to open script file")
    ensures script.Unreadable? ==> r == Panicked("Failed to read script file")
  {
    match script
    case Missing => Panicked("Failed to open script file")
    case Unreadable => Panicked("Failed to read script file")
    case Script(_) =>
      if !Confirmed(answer) then Cancelled
      else if !unix then Skipped
      else if !spawned then Panicked("Failed to execute script")
      else Finished(exitCode == Some(0))
  }

  /** The reported outcome depends on the exit status alone: not on the script's
      text, the answer's exact spelling or anything relayed. */
  lemma OutcomeOnlyFromStatus(s1: string, s2: string, a1: string, a2: string, exitCode: Option<int>)
    requires Confirmed(a1) && Confirmed(a2)
    ensures RunScript(Script(s1), a1, true, true, exitCode) == RunScript(Script(s2), a2, true, true, exitCode)
  {
  }
}

=== FILE: host.dfy ===
/** The client's commands as operations on the machine it runs on. */
module ClientHost {
  import opened Common
  import opened Archive
  import opened Scaffold
  import opened Client


  /** The current directory and `/tmp` of the machine the client runs on. */
  class Host {
    var cwd: Area
    var tmp: Area

    constructor (cwd: Area, tmp: Area)
      ensures this.cwd == cwd && this.tmp == tmp
    {
      this.cwd := cwd;
      this.tmp := tmp;
    }

    /** `get_task_by_index`. */
    method GetTaskByIndex(list: ListReply, index: nat, server: Form -> Reply, env: Env, stamp: Meta, unix: bool)
      returns (r: Outcome, runs: bool)
      modifies this
      ensures Fetched(cwd, tmp, r, runs) == GetSpec(old(cwd), old(tmp), list, index, server, env, stamp, unix)
    {
      runs := false;
      if list.ListSendFailed? || !IsSuccess(list.status) {
        return Pass, false;
      }
      if list.tasks.None? {
        return Fail("error decoding response body"), false;
      }
      var tasks := list.tasks.value;
      if index >= |tasks| {
        return Pass, false;
      }
      var task := tasks[index];
      var cachePath := CacheZip(task);
      var md5 := env.md5(ReadOrEmpty(tmp, cachePath));
      var srcPath := WorkingZip(task);
      if srcPath in cwd && cwd[srcPath].Directory? {
        return Fail("Is a directory"), false;
      }
      cwd := cwd[srcPath := PlainFile([])];
      var downloadResp := server(DownloadForm(task, md5));
      if downloadResp.SendFailed? {
        return Fail("error sending request"), false;
      }
      var check := true;
      if downloadResp.status == StatusNotModified {
        check := false;
      }
      if check {
        if !IsSuccess(downloadResp.status) {
          return Fail(DownloadFailure(downloadResp.body, env)), false;
        }
        cwd := cwd[srcPath := PlainFile(downloadResp.body)];
        if cachePath in tmp && tmp[cachePath].Directory? {
          return Fail("Is a directory"), false;
        }
        tmp := tmp[cachePath := PlainFile(downloadResp.body)];
      } else {
        if !(cachePath in tmp && tmp[cachePath].PlainFile?) {
          return Fail(if cachePath in tmp then NotRegularFile else "No such file or directory"), false;
        }
        cwd := cwd[srcPath := PlainFile(tmp[cachePath].bytes)];
      }
      var destDir := TaskKey(task);
      var unpacked, unpackRes := UnpackZip(tmp, destDir, cwd[srcPath].bytes, env, stamp);
      tmp := unpacked;
      cwd := cwd - {srcPath};
      r := Pass;
      runs := unpackRes.Pass? && unix;
    }

    /** `clean_cache`. */
    method CleanCache(list: ListReply, index: Option<nat>) returns (r: Outcome)
      modifies this
      ensures (tmp, r) == CleanSpec(old(tmp), list, index)
      ensures cwd == old(cwd)
    {
      if list.ListSendFailed? {
        return Fail("error sending request");
      }
      if list.tasks.None? {
        return Fail("error decoding response body");
      }
      var tasks := list.tasks.value;
      if index.Some? && index.value >= |tasks| {
        return Fail("Task index out of range");
      }
      if index.Some? {
        tasks := [tasks[index.value]];
      }
      r := RemoveCaches(tasks);
    }

    /** The loop of `clean_cache` over the selected tasks: each task's cache
        directory, then its archive, stopping at the first error. */
    method RemoveCaches(tasks: seq<Task>) returns (r: Outcome)
      modifies this
      ensures (tmp, r) == CleanAll(old(tmp), tasks)
      ensures cwd == old(cwd)
    {
      var i := 0;
      while i < |tasks|
        invariant 0 <= i <= |tasks|
        invariant cwd == old(cwd)
        invariant CleanAll(tmp, tasks[i..]) == CleanAll(old(tmp), tasks)
      {
        assert tasks[i..][0] == tasks[i] && tasks[i..][1..] == tasks[i + 1..];
        var task := tasks[i];
        ghost var step := CleanOne(tmp, task);
        assert CleanAll(tmp, tasks[i..]) == if step.1.Fail? then step else CleanAll(step.0, tasks[i + 1..]);
        var cachePath := TaskKey(task);
        if cachePath in tmp {
          if tmp[cachePath].PlainFile? {
            return Fail("Not a directory");
          }
          tmp := tmp - {cachePath};
        } else {
          assert tmp - {cachePath} == tmp;
        }
        var cacheZip := WithExtension(cachePath, "zip");
        if cacheZip in tmp {
          if tmp[cacheZip].Directory? {
            return Fail("Is a directory");
          }
          tmp := tmp - {cacheZip};
        } else {
          assert tmp - {cacheZip} == tmp;
        }
        assert step == (tmp, Pass);
        i := i + 1;
      }
      assert tasks[i..] == [];
      r := Pass;
    }

    /** `delete_task`; `second` is the listing `clean_cache` fetches. */
    method DeleteTask(first: ListReply, index: nat, server: Form -> Reply, second: ListReply) returns (r: Outcome)
      modifies this
      ensures (tmp, r) == DeleteSpec(old(tmp), first, index, server, second)
      ensures cwd == old(cwd)
    {
      if first.ListSendFailed? {
        return Fail("error sending request");
      }
      if first.tasks.None? {
        return Fail("error decoding response body");
      }
      var tasks := first.tasks.value;
      if index >= |tasks| {
        return Fail("Task index out of range");
      }
      var resp := server(DeleteForm(tasks[index]));
      if resp.SendFailed? {
        return Fail("error sending request");
      }
      if IsSuccess(resp.status) {
        r := CleanCache(second, Some(index));
        return;
      }
      r := Pass;
    }

    /** `upload_task`; `order` is the `read_dir` order of the task directory. */
    method UploadTask(path: string, order: seq<string>, env: Env, unix: bool) returns (r: Outcome, sent: Option<UploadRequest>)
      modifies this
      ensures Posted(cwd, r, sent) == UploadSpec(old(cwd), path, order, env, unix)
      ensures tmp == old(tmp)
    {
      if path !in cwd {
        return Fail("File not found at " + path), None;
      }
      if !cwd[path].Directory? || "config.toml" !in cwd[path].contents {
        return Fail("config.toml not found in the task directory"), None;
      }
      var dir := cwd[path].contents;
      if dir["config.toml"].Folder? {
        return Fail("Is a directory"), None;
      }
      var parsed := env.parseTask(dir["config.toml"].data);
      if parsed.NotUtf8? {
        return Fail("stream did not contain valid UTF-8"), None;
      }
      if parsed.BadToml? {
        return Fail(parsed.msg), None;
      }
      var task := parsed.task;
      var scriptPath := if unix then "run.sh" else "run.bat";
      if scriptPath !in dir {
        return Fail("run.sh or run.bat not found in the task directory"), None;
      }
      var zipPath := task.name + ".zip";
      var built, o := CreateZip(cwd, path, zipPath, order, env);
      cwd := built;
      if o.Fail? {
        return o, None;
      }
      sent := Some(UploadRequest(TaskKey(task), cwd[zipPath].bytes));
      cwd := cwd - {zipPath};
      r := Pass;
    }

    /** `create_new_task`; the freshly generated UUID is an input. */
    method NewTask(name: string, uuid: string, unix: bool, stamp: Meta) returns (r: Outcome)
      requires IsUuidText(uuid)
      modifies this
      ensures (cwd, r) == NewTaskSpec(old(cwd), name, uuid, unix, stamp)
      ensures tmp == old(tmp)
    {
      var dir := cwd;
      if name in dir {
        return Fail("File exists");
      }
      var content := FillConfig(uuid, name);
      var files := map["config.toml" := File(Utf8(content), stamp)];
      // the platform's script; on Unix it is written, then given mode 0o755
      var mode := if unix then Mode755 else stamp.mode;
      files := files[ScriptName(unix) := File(ScriptBytes(unix), Meta(mode, stamp.mtime))];
      cwd := dir[name := Directory(files)];
      r := Pass;
    }
  }
}

=== FILE: protocol.dfy ===
/** The client and the server together: the download endpoint as the client's
    `server` function, and what the two sides promise each other about the
    cache-digest negotiation, uploads and deletions. Requests are taken to
    carry the configured password, so the authorization hoop lets them through. */
module Protocol {
  import opened Common
  import opened Rendering
  import Archive
  import Registry
  import Router
  import Client

  /** The bytes a rendered body is sent as; `json` is the JSON serialisation,
      which the model does not interpret. */
  function BodyBytes(b: Body, json: Json -> Bytes): Bytes {
    match b
    case NoBody => []
    case JsonBody(j) => json(j)
    case TextBody(t) => Utf8(t)
    case FileBody(bytes) => bytes
  }

  /** The rendered response to a download form posted to a server whose
      `./tasks` is `tasks`: it always has a status, and that status is 200,
      304 or 500. */
  function Served(tasks: Area, form: Form, order: seq<string>, env: Env): (out: Response)
    ensures out.status.Some?
    ensures out.status.value in {StatusOk, StatusNotModified, StatusInternalServerError}
  {
    var d := Router.DownloadSpec(tasks, form, order, env, Fresh);
    Render(d.result, d.res)
  }

  /** The download endpoint as the client's reply function. */
  function DownloadServer(tasks: Area, order: seq<string>, env: Env, json: Json -> Bytes): Form -> Client.Reply {
    form => var out := Served(tasks, form, order, env);
      Client.Replied(out.status.value, BodyBytes(out.body, json))
  }

  /** The server holds the task's bundle directory and can build its archive. */
  predicate Hosts(tasks: Area, t: Task) {
    var key := Router.BundleKey(t.name, t.uuid);
    && key in tasks && tasks[key].Directory?
    && !(Router.BundleZip(key) in tasks && tasks[Router.BundleZip(key)].Directory?)
  }

  /** The archive the server sends for the task. */
  function Archived(tasks: Area, t: Task, order: seq<string>, env: Env): Bytes
    requires Hosts(tasks, t)
  {
    Router.BundleArchive(tasks, Router.BundleKey(t.name, t.uuid), order, env)
  }

  /** The client's cache name and the server's bundle directory are spelled
      alike, and the client's forms name that bundle. */
  lemma KeysAgree(t: Task, digest: string)
    ensures Client.TaskKey(t) == Router.BundleKey(t.name, t.uuid)
    ensures Client.CacheZip(t) == Router.BundleZip(Router.BundleKey(t.name, t.uuid))
    ensures var f := Client.DownloadForm(t, digest);
      "name" in f && "uuid" in f && "md5" in f && f["md5"] == digest
      && Router.BundleKey(f["name"], f["uuid"]) == Client.TaskKey(t)
    ensures var f := Client.DeleteForm(t);
      "name" in f && "uuid" in f && Router.BundleKey(f["name"], f["uuid"]) == Client.TaskKey(t)
  {
  }

  /** The reply a hosted task's download form gets: 304 with no body exactly
      when the digest matches the archive the server builds, otherwise 200 with
      that archive. */
  lemma HostedReply(tasks: Area, t: Task, digest: string, order: seq<string>, env: Env, json: Json -> Bytes)
    requires Hosts(tasks, t)
    ensures var reply := DownloadServer(tasks, order, env, json)(Client.DownloadForm(t, digest));
      var zip := Archived(tasks, t, order, env);
      && reply.Replied?
      && (digest == env.md5(zip) ==> reply == Client.Replied(StatusNotModified, []))
      && (digest != env.md5(zip) ==> reply == Client.Replied(StatusOk, zip))
  {
    var form := Client.DownloadForm(t, digest);
    KeysAgree(t, digest);
    Router.DownloadNegotiation(tasks, form, order, env, Fresh);
    assert Utf8("") == [];
  }

  /** A fetch from a server hosting the task skips the transfer exactly when the
      cached archive's digest (of no bytes, without a cache) equals the digest
      of the archive the server builds. The fetch succeeds unless the digest of
      no bytes matched while there was no cache; after a successful fetch the
      cache holds an archive with the server's digest (the server's archive
      itself when it was transferred), and the working archive is gone. */
  lemma FetchFromServer(cwd: Area, tmp: Area, t: Task, tasks: Area, order: seq<string>, env: Env,
                        json: Json -> Bytes, stamp: Meta, unix: bool)
    requires Hosts(tasks, t)
    requires !(Client.WorkingZip(t) in cwd && cwd[Client.WorkingZip(t)].Directory?)
    requires !(Client.CacheZip(t) in tmp && tmp[Client.CacheZip(t)].Directory?)
    ensures var server := DownloadServer(tasks, order, env, json);
      var digest := env.md5(Client.ReadOrEmpty(tmp, Client.CacheZip(t)));
      var zip := Archived(tasks, t, order, env);
      var f := Client.FetchSpec(cwd, tmp, t, server, env, stamp, unix);
      && (server(Client.DownloadForm(t, digest)).status == StatusNotModified <==> digest == env.md5(zip))
      && (f.outcome == Pass <==> Client.CacheZip(t) in tmp || env.md5([]) != env.md5(zip))
      && (f.outcome == Pass ==>
            && f.cwd == cwd - {Client.WorkingZip(t)}
            && Client.CacheZip(t) in f.tmp && f.tmp[Client.CacheZip(t)].PlainFile?
            && env.md5(f.tmp[Client.CacheZip(t)].bytes) == env.md5(zip))
      && (digest != env.md5(zip) ==> Client.CacheZip(t) in f.tmp && f.tmp[Client.CacheZip(t)] == PlainFile(zip))
  {
    var server := DownloadServer(tasks, order, env, json);
    var cache := Client.CacheZip(t);
    var digest := env.md5(Client.ReadOrEmpty(tmp, cache));
    var zip := Archived(tasks, t, order, env);
    HostedReply(tasks, t, digest, order, env, json);
    Client.DigestSource(tmp, t);
    if digest == env.md5(zip) {
      Client.FetchNotModified(cwd, tmp, t, server, env, stamp, unix);
      var f := Client.FetchSpec(cwd, tmp, t, server, env, stamp, unix);
      if cache in tmp {
        assert cache != Client.TaskKey(t) by { assert |cache| == |Client.TaskKey(t)| + 4; }
        assert f.tmp[cache] == tmp[cache];
      }
    } else {
      Client.FetchReceived(cwd, tmp, t, server, env, stamp, unix);
    }
  }

  /** Once a fetch has succeeded, fetching the same task again from the same
      server transfers nothing: the reply is 304, the cached archive is
      unpacked again, and only the unpack destination in `/tmp` changes. */
  lemma SecondFetchNotModified(cwd: Area, tmp: Area, t: Task, tasks: Area, order: seq<string>, env: Env,
                               json: Json -> Bytes, stamp: Meta, unix: bool, cwd2: Area)
    requires Hosts(tasks, t)
    requires !(Client.WorkingZip(t) in cwd && cwd[Client.WorkingZip(t)].Directory?)
    requires !(Client.CacheZip(t) in tmp && tmp[Client.CacheZip(t)].Directory?)
    requires Client.FetchSpec(cwd, tmp, t, DownloadServer(tasks, order, env, json), env, stamp, unix).outcome == Pass
    requires !(Client.WorkingZip(t) in cwd2 && cwd2[Client.WorkingZip(t)].Directory?)
    ensures var server := DownloadServer(tasks, order, env, json);
      var tmp1 := Client.FetchSpec(cwd, tmp, t, server, env, stamp, unix).tmp;
      var digest := env.md5(Client.ReadOrEmpty(tmp1, Client.CacheZip(t)));
      var f := Client.FetchSpec(cwd2, tmp1, t, server, env, stamp, unix);
      && server(Client.DownloadForm(t, digest)) == Client.Replied(StatusNotModified, [])
      && f.outcome == Pass
      && f.tmp == Archive.UnpackSpec(tmp1, Client.TaskKey(t), tmp1[Client.CacheZip(t)].bytes, env, stamp).0
      && (f.runs <==> unix && Archive.UnpackSpec(tmp1, Client.TaskKey(t), tmp1[Client.CacheZip(t)].bytes, env, stamp).1 == Pass)
      && Client.SameOutside(tmp1, f.tmp, Client.TaskKey(t))
  {
    var server := DownloadServer(tasks, order, env, json);
    FetchFromServer(cwd, tmp, t, tasks, order, env, json, stamp, unix);
    var tmp1 := Client.FetchSpec(cwd, tmp, t, server, env, stamp, unix).tmp;
    var digest := env.md5(Client.ReadOrEmpty(tmp1, Client.CacheZip(t)));
    HostedReply(tasks, t, digest, order, env, json);
    Client.FetchNotModified(cwd2, tmp1, t, server, env, stamp, unix);
  }

  /** A task the server does not host is refused: the client reports
      "Failed to download task" followed by the server's rendered error,
      "Internal Server Error: Task not found", and keeps its cache. */
  lemma FetchUnhosted(cwd: Area, tmp: Area, t: Task, tasks: Area, order: seq<string>, env: Env,
                      json: Json -> Bytes, stamp: Meta, unix: bool)
    requires !(Router.BundleKey(t.name, t.uuid) in tasks && tasks[Router.BundleKey(t.name, t.uuid)].Directory?)
    requires !(Client.WorkingZip(t) in cwd && cwd[Client.WorkingZip(t)].Directory?)
    ensures Client.FetchSpec(cwd, tmp, t, DownloadServer(tasks, order, env, json), env, stamp, unix)
      == Client.Fetched(cwd[Client.WorkingZip(t) := PlainFile([])], tmp, Fail(Client.DownloadFailure(json(JStr("Internal Server Error: Task not found")), env)), false)
  {
    var server := DownloadServer(tasks, order, env, json);
    var form := Client.DownloadForm(t, env.md5(Client.ReadOrEmpty(tmp, Client.CacheZip(t))));
    KeysAgree(t, form["md5"]);
    Router.DownloadValidation(tasks, form, order, env, Fresh);
    assert ErrorText(AnyHow("Task not found")) == "Internal Server Error: Task not found";
    assert server(form).body == json(JStr("Internal Server Error: Task not found"));
    Client.FetchRefused(cwd, tmp, t, server, env, stamp, unix);
  }

  /** The request the client's upload sends, as the server's handler receives it. */
  function Received(req: Client.UploadRequest): Router.Upload {
    Router.Upload(Some(req.fileName), req.data)
  }

  /** The server side of an upload: an archive packed from a flat task
      directory whose `config.toml` parses to `t` is unpacked under `dest` with
      every file's bytes, and `t` is registered. */
  lemma ServerUnpacks(src: Dir, order: seq<string>, env: Env, t: Task, dest: string,
                      tasks: Area, records: seq<Task>, stamp: Meta)
    requires ZipSound(env)
    requires Archive.IsListing(src, order)
    requires "config.toml" in src && src["config.toml"].File? && env.parseTask(src["config.toml"].data) == Parsed(t)
    requires !(dest in tasks && tasks[dest].PlainFile?)
    ensures var data := env.zipWrite(Archive.Packed(src, order));
      var u := Router.UploadSpec(tasks, records, Some(Router.Upload(Some(dest), data)), env, stamp);
      && u.result == Success(JStr("upload successfully"))
      && u.records == Registry.Upsert(records, t)
      && Registry.Get(u.records, t.uuid, t.name) == Ok(t)
      && dest in u.tasks && u.tasks[dest].Directory?
      && (forall n :: n in src && IsBaseName(n) && src[n].File? ==>
            n in u.tasks[dest].contents && u.tasks[dest].contents[n] == File(src[n].data, stamp))
      && u.tasks.Keys == tasks.Keys + {dest}
      && (forall k :: k in tasks && k != dest ==> u.tasks[k] == tasks[k])
  {
    var data := env.zipWrite(Archive.Packed(src, order));
    UnpackedBundle(src, order, env, dest, tasks, stamp);
    UnpackedManifest(src, order, env, dest, tasks, stamp, t);
    ServerRegisters(tasks, records, dest, data, env, stamp, t);
    Registry.GetAfterUpsert(records, t);
  }

  /** The unpacked bundle's `config.toml` is the task directory's. */
  lemma UnpackedManifest(src: Dir, order: seq<string>, env: Env, dest: string, tasks: Area, stamp: Meta, t: Task)
    requires ZipSound(env)
    requires Archive.IsListing(src, order)
    requires "config.toml" in src && src["config.toml"].File? && env.parseTask(src["config.toml"].data) == Parsed(t)
    ensures var (a, o) := Archive.UnpackSpec(tasks - {dest}, dest, env.zipWrite(Archive.Packed(src, order)), env, stamp);
      o == Pass && a[dest].Directory? && "config.toml" in a[dest].contents
      && a[dest].contents["config.toml"].File? && env.parseTask(a[dest].contents["config.toml"].data) == Parsed(t)
  {
    UnpackedBundle(src, order, env, dest, tasks, stamp);
    assert IsBaseName("config.toml") by {
      assert "config.toml"[6] == '.';
    }
  }

  /** Once the archive has unpacked and the unpacked `config.toml` reads as
      `t`, the upload succeeds with the unpacked tree and `t` upserted. */
  lemma ServerRegisters(tasks: Area, records: seq<Task>, dest: string, data: Bytes, env: Env, stamp: Meta, t: Task)
    requires !(dest in tasks && tasks[dest].PlainFile?)
    requires var (a, o) := Archive.UnpackSpec(tasks - {dest}, dest, data, env, stamp);
      o == Pass && a[dest].Directory? && "config.toml" in a[dest].contents
      && a[dest].contents["config.toml"].File? && env.parseTask(a[dest].contents["config.toml"].data) == Parsed(t)
    ensures var (a, _) := Archive.UnpackSpec(tasks - {dest}, dest, data, env, stamp);
      Router.UploadSpec(tasks, records, Some(Router.Upload(Some(dest), data)), env, stamp)
        == Router.Uploaded(a, Registry.Upsert(records, t), Success(JStr("upload successfully")))
  {
  }

  /** The archive of a flat directory unpacks under `dest`, replacing whatever
      was there, with every file's bytes; the rest of `./tasks` is kept. */
  lemma UnpackedBundle(src: Dir, order: seq<string>, env: Env, dest: string, tasks: Area, stamp: Meta)
    requires ZipSound(env)
    requires Archive.IsListing(src, order)
    ensures var (a, o) := Archive.UnpackSpec(tasks - {dest}, dest, env.zipWrite(Archive.Packed(src, order)), env, stamp);
      && o == Pass
      && a[dest].Directory?
      && (forall n :: n in src && IsBaseName(n) && src[n].File? ==>
            n in a[dest].contents && a[dest].contents[n] == File(src[n].data, stamp))
      && a.Keys == tasks.Keys + {dest}
      && (forall k :: k in tasks && k != dest ==> a[k] == tasks[k])
  {
    var data := env.zipWrite(Archive.Packed(src, order));
    Archive.RoundTrip(src, order, env, tasks - {dest}, dest, stamp);
    Archive.UnpackKeepsExisting(tasks - {dest}, dest, data, env, stamp);
    assert (tasks - {dest}).Keys + {dest} == tasks.Keys + {dest};
  }

  /** Storing a bundle directory under a task's key, and changing nothing
      else, makes the server host the task unless its temporary archive path
      is taken by a directory. */
  lemma HostsOnceStored(before: Area, after: Area, t: Task)
    requires var key := Router.BundleKey(t.name, t.uuid);
      key in after && after[key].Directory? && after.Keys == before.Keys + {key}
      && forall k :: k in before && k != key ==> after[k] == before[k]
    ensures var zip := Router.BundleZip(Router.BundleKey(t.name, t.uuid));
      Hosts(after, t) <==> !(zip in before && before[zip].Directory?)
  {
    var key := Router.BundleKey(t.name, t.uuid);
    assert Router.BundleZip(key) != key by { assert |Router.BundleZip(key)| == |key| + 4; }
  }

  /** The client side of an upload: a task directory that passes the checks
      is sent as the archive of that directory, under `{name}-{uuid}`. */
  lemma ClientSends(cwd: Area, path: string, order: seq<string>, env: Env, unix: bool)
    requires Client.UploadReady(cwd, path, env, unix)
    requires var t := env.parseTask(cwd[path].contents["config.toml"].data).task;
      !(t.name + ".zip" in cwd && cwd[t.name + ".zip"].Directory?)
    ensures var t := env.parseTask(cwd[path].contents["config.toml"].data).task;
      Client.UploadSpec(cwd, path, order, env, unix).sent
        == Some(Client.UploadRequest(Client.TaskKey(t), env.zipWrite(Archive.Packed(cwd[path].contents, order))))
  {
    Client.UploadChecks(cwd, path, order, env, unix);
  }

  /** A task directory that passes the client's checks and is flat (every
      child named in its listing) arrives intact: with a zip codec that reads
      back what it wrote, the client sends the archive of that directory under
      `{name}-{uuid}`, the server unpacks it (with every file's bytes, as
      `ServerUnpacks` states) and registers the task its `config.toml`
      describes, and the server then hosts that task for downloads. */
  lemma UploadRoundTrip(cwd: Area, path: string, order: seq<string>, env: Env, unix: bool,
                        tasks: Area, records: seq<Task>, stamp: Meta)
    requires ZipSound(env)
    requires Client.UploadReady(cwd, path, env, unix)
    requires Archive.IsListing(cwd[path].contents, order)
    requires var t := env.parseTask(cwd[path].contents["config.toml"].data).task;
      !(t.name + ".zip" in cwd && cwd[t.name + ".zip"].Directory?)
    requires var t := env.parseTask(cwd[path].contents["config.toml"].data).task;
      !(Client.TaskKey(t) in tasks && tasks[Client.TaskKey(t)].PlainFile?)
    ensures var src := cwd[path].contents;
      var t := env.parseTask(src["config.toml"].data).task;
      var p := Client.UploadSpec(cwd, path, order, env, unix);
      var u := Router.UploadSpec(tasks, records, Some(Received(p.sent.value)), env, stamp);
      && p.sent.Some?
      && u.result == Success(JStr("upload successfully"))
      && Registry.Get(u.records, t.uuid, t.name) == Ok(t)
      && p.sent.value == Client.UploadRequest(Client.TaskKey(t), env.zipWrite(Archive.Packed(src, order)))
      && (Hosts(u.tasks, t) <==>
            !(Router.BundleZip(Client.TaskKey(t)) in tasks && tasks[Router.BundleZip(Client.TaskKey(t))].Directory?))
  {
    var src := cwd[path].contents;
    var t := env.parseTask(src["config.toml"].data).task;
    var key := Client.TaskKey(t);
    ClientSends(cwd, path, order, env, unix);
    ServerUnpacks(src, order, env, t, key, tasks, records, stamp);
    var u := Router.UploadSpec(tasks, records, Some(Router.Upload(Some(key), env.zipWrite(Archive.Packed(src, order)))), env, stamp);
    HostsOnceStored(tasks, u.tasks, t);
  }

  /** Once the server has deleted a task's bundle, the client's next fetch of
      that task is refused, whatever its cache holds. */
  lemma DeletedIsUnhosted(tasks: Area, records: seq<Task>, t: Task, cwd: Area, tmp: Area, order: seq<string>,
                          env: Env, json: Json -> Bytes, stamp: Meta, unix: bool)
    requires !(Client.WorkingZip(t) in cwd && cwd[Client.WorkingZip(t)].Directory?)
    ensures var d := Router.DeleteSpec(tasks, records, Client.DeleteForm(t));
      && !(Client.TaskKey(t) in d.tasks && d.tasks[Client.TaskKey(t)].Directory?)
      && Client.FetchSpec(cwd, tmp, t, DownloadServer(d.tasks, order, env, json), env, stamp, unix)
           == Client.Fetched(cwd[Client.WorkingZip(t) := PlainFile([])], tmp, Fail(Client.DownloadFailure(json(JStr("Internal Server Error: Task not found")), env)), false)
  {
    KeysAgree(t, "");
    var d := Router.DeleteSpec(tasks, records, Client.DeleteForm(t));
    FetchUnhosted(cwd, tmp, t, d.tasks, order, env, json, stamp, unix);
  }
}

=== FILE: registry.dfy ===
/** `TaskDatabase` (src/db.rs): the task collection as a sequence of records.
    Queries by `(uuid, name)` act on the first matching record, as polodb's
    `find_one`, `update_one` and `delete_one` do. */
module Registry {
  import opened Common

  // ---------------------------------------------------------------------
  // The collection operations
  // ---------------------------------------------------------------------

  /** Index of the first record with the given key. */
  function Find(rs: seq<Task>, uuid: string, name: string): (r: Option<nat>)
    ensures r.Some? ==> r.value < |rs| && HasKey(rs[r.value], uuid, name)
    ensures r.Some? ==> forall j :: 0 <= j < r.value ==> !HasKey(rs[j], uuid, name)
    ensures r.None? <==> forall j :: 0 <= j < |rs| ==> !HasKey(rs[j], uuid, name)
  {
    if rs == [] then None
    else if HasKey(rs[0], uuid, name) then Some(0)
    else
      match Find(rs[1..], uuid, name)
      case None => None
      case Some(i) => Some(i + 1)
  }

  /** Number of records with the given key. */
  function Count(rs: seq<Task>, uuid: string, name: string): (c: nat)
    ensures c > 0 <==> exists j :: 0 <= j < |rs| && HasKey(rs[j], uuid, name)
    ensures c <= |rs|
  {
    if rs == [] then 0
    else (if HasKey(rs[0], uuid, name) then 1 else 0) + Count(rs[1..], uuid, name)
  }

  /** No two records share a key. */
  predicate Unique(rs: seq<Task>) {
    forall i, j :: 0 <= i < j < |rs| ==> !HasKey(rs[j], rs[i].uuid, rs[i].name)
  }

  /** `add_task`: the first record with the task's key gets the task's
      description; without one, the task is appended. */
  function Upsert(rs: seq<Task>, t: Task): seq<Task> {
    match Find(rs, t.uuid, t.name)
    case Some(i) => rs[i := rs[i].(description := t.description)]
    case None => rs + [t]
  }

  /** `get_task`. */
  function Get(rs: seq<Task>, uuid: string, name: string): Result<Task> {
    match Find(rs, uuid, name)
    case Some(i) => Ok(rs[i])
    case None => Err("Task not found")
  }

  /** `delete_tasks`: removes the first record with the key. */
  function RemoveFirst(rs: seq<Task>, uuid: string, name: string): Result<seq<Task>> {
    match Find(rs, uuid, name)
    case Some(i) => Ok(rs[..i] + rs[i + 1..])
    case None => Err("Task not found")
  }

  /** `tasks.retain(|t| t.uuid != task.uuid && t.name != task.name)`: keeps only
      the records that share NEITHER field with `t`. */
  function Retain(ts: seq<Task>, t: Task): (r: seq<Task>)
    ensures forall x :: x in r ==> x in ts && x.uuid != t.uuid && x.name != t.name
  {
    if ts == [] then []
    else (if ts[0].uuid != t.uuid && ts[0].name != t.name then [ts[0]] else []) + Retain(ts[1..], t)
  }

  // ---------------------------------------------------------------------
  // Single-operation properties
  // ---------------------------------------------------------------------

  /** `add_task` changes only the description of the first record with the key,
      which then equals the task; otherwise it appends the task. */
  lemma UpsertEffect(rs: seq<Task>, t: Task)
    ensures var r := Upsert(rs, t);
      match Find(rs, t.uuid, t.name)
      case Some(i) => |r| == |rs| && r[i] == t && forall j :: 0 <= j < |rs| && j != i ==> r[j] == rs[j]
      case None => r == rs + [t]
  {
  }

  /** `add_task` never creates a second record for a key. */
  lemma UpsertKeepsUnique(rs: seq<Task>, t: Task)
    requires Unique(rs)
    ensures Unique(Upsert(rs, t))
  {
    var r := Upsert(rs, t);
    match Find(rs, t.uuid, t.name)
    case Some(i) =>
      forall a, b | 0 <= a < b < |r| ensures !HasKey(r[b], r[a].uuid, r[a].name) {
        assert HasKey(r[a], rs[a].uuid, rs[a].name) && HasKey(r[b], rs[b].uuid, rs[b].name);
      }
    case None =>
  }

  /** After `add_task(t)`, `get_task(t.uuid, t.name)` returns `t` itself. */
  lemma GetAfterUpsert(rs: seq<Task>, t: Task)
    ensures Get(Upsert(rs, t), t.uuid, t.name) == Ok(t)
  {
    var r := Upsert(rs, t);
    match Find(rs, t.uuid, t.name)
    case Some(i) =>
      assert r[i] == t;
      var k := Find(r, t.uuid, t.name);
      assert k == Some(i) by {
        forall j | 0 <= j < i ensures !HasKey(r[j], t.uuid, t.name) { assert r[j] == rs[j]; }
      }
    case None =>
      assert r[|rs|] == t;
      var k := Find(r, t.uuid, t.name);
      assert k == Some(|rs|) by {
        forall j | 0 <= j < |rs| ensures !HasKey(r[j], t.uuid, t.name) { assert r[j] == rs[j]; }
      }
  }

  /** `get_task` fails with "Task not found" exactly when no record has the key. */
  lemma GetFailsIffAbsent(rs: seq<Task>, uuid: string, name: string)
    ensures Get(rs, uuid, name).Err? <==> forall x :: x in rs ==> !HasKey(x, uuid, name)
    ensures Get(rs, uuid, name).Err? ==> Get(rs, uuid, name).msg == "Task not found"
    ensures Get(rs, uuid, name).Ok? ==> Get(rs, uuid, name).value in rs && HasKey(Get(rs, uuid, name).value, uuid, name)
  {
    if Find(rs, uuid, name).None? {
      forall x | x in rs ensures !HasKey(x, uuid, name) {
        var j :| 0 <= j < |rs| && rs[j] == x;
      }
    }
  }

  /** `delete_tasks` removes exactly one record, the first with the key, and
      keeps the others in order; it fails with "Task not found" when none has
      the key. */
  lemma RemoveFirstEffect(rs: seq<Task>, uuid: string, name: string)
    ensures RemoveFirst(rs, uuid, name).Err? <==> forall x :: x in rs ==> !HasKey(x, uuid, name)
    ensures RemoveFirst(rs, uuid, name).Err? ==> RemoveFirst(rs, uuid, name).msg == "Task not found"
    ensures RemoveFirst(rs, uuid, name).Ok? ==>
      exists i :: 0 <= i < |rs| && HasKey(rs[i], uuid, name)
        && (forall j :: 0 <= j < i ==> !HasKey(rs[j], uuid, name))
        && RemoveFirst(rs, uuid, name).value == rs[..i] + rs[i + 1..]
  {
    if Find(rs, uuid, name).None? {
      forall x | x in rs ensures !HasKey(x, uuid, name) {
        var j :| 0 <= j < |rs| && rs[j] == x;
      }
    }
  }

  // ---------------------------------------------------------------------
  // Counting lemmas used by the reconciliation proof
  // ---------------------------------------------------------------------

  lemma {:induction false} CountAppend(rs: seq<Task>, t: Task, uuid: string, name: string)
    ensures Count(rs + [t], uuid, name) == Count(rs, uuid, name) + (if HasKey(t, uuid, name) then 1 else 0)
  {
    if rs != [] {
      assert (rs + [t])[1..] == rs[1..] + [t];
      CountAppend(rs[1..], t, uuid, name);
    }
  }

  lemma {:induction false} CountSplit(rs: seq<Task>, i: nat, uuid: string, name: string)
    requires i < |rs|
    ensures Count(rs, uuid, name) == Count(rs[..i], uuid, name) + (if HasKey(rs[i], uuid, name) then 1 else 0) + Count(rs[i + 1..], uuid, name)
  {
    if i == 0 {
      assert rs[..0] == [];
    } else {
      assert rs[1..][..i - 1] == rs[1..i];
      assert rs[..i][1..] == rs[1..i];
      assert rs[1..][i - 1 + 1..] == rs[i + 1..];
      CountSplit(rs[1..], i - 1, uuid, name);
    }
  }

  lemma {:induction false} CountConcat(a: seq<Task>, b: seq<Task>, uuid: string, name: string)
    ensures Count(a + b, uuid, name) == Count(a, uuid, name) + Count(b, uuid, name)
  {
    if a != [] {
      assert (a + b)[0] == a[0];
      assert (a + b)[1..] == a[1..] + b;
      CountConcat(a[1..], b, uuid, name);
    } else {
      assert a + b == b;
    }
  }

  /** Upsert adds a record only under the task's key and never loses one. */
  lemma CountUpsert(rs: seq<Task>, t: Task, uuid: string, name: string)
    ensures !HasKey(t, uuid, name) ==> Count(Upsert(rs, t), uuid, name) == Count(rs, uuid, name)
    ensures Count(Upsert(rs, t), uuid, name) >= Count(rs, uuid, name)
  {
    match Find(rs, t.uuid, t.name)
    case Some(i) =>
      var r := Upsert(rs, t);
      CountSplit(rs, i, uuid, name);
      CountSplit(r, i, uuid, name);
      assert r[..i] == rs[..i] && r[i + 1..] == rs[i + 1..];
    case None =>
      CountAppend(rs, t, uuid, name);
  }

  /** Removing the first record with one key lowers that key's count by one
      and leaves every other key's count as it was. */
  lemma CountRemoveFirst(rs: seq<Task>, k: Task, uuid: string, name: string)
    requires RemoveFirst(rs, k.uuid, k.name).Ok?
    ensures Count(RemoveFirst(rs, k.uuid, k.name).value, uuid, name)
      == Count(rs, uuid, name) - (if k.uuid == uuid && k.name == name then 1 else 0)
  {
    var i := Find(rs, k.uuid, k.name).value;
    CountSplit(rs, i, uuid, name);
    CountConcat(rs[..i], rs[i + 1..], uuid, name);
  }

  /** Removing the first record with one key only removes, and keeps every
      record with another key. */
  lemma RemoveFirstMembers(rs: seq<Task>, k: Task)
    requires RemoveFirst(rs, k.uuid, k.name).Ok?
    ensures var r := RemoveFirst(rs, k.uuid, k.name).value;
      && (forall x :: x in r ==> x in rs)
      && (forall x :: x in rs && !HasKey(x, k.uuid, k.name) ==> x in r)
  {
    var i := Find(rs, k.uuid, k.name).value;
    var r := rs[..i] + rs[i + 1..];
    forall x | x in rs && !HasKey(x, k.uuid, k.name) ensures x in r {
      var j :| 0 <= j < |rs| && rs[j] == x;
      if j < i { assert r[j] == x; } else { assert j != i; assert r[j - 1] == x; }
    }
  }

  lemma {:induction false} CountRetain(ts: seq<Task>, t: Task, uuid: string, name: string)
    requires uuid != t.uuid && name != t.name
    ensures Count(Retain(ts, t), uuid, name) == Count(ts, uuid, name)
  {
    if ts != [] {
      CountRetain(ts[1..], t, uuid, name);
      var head := if ts[0].uuid != t.uuid && ts[0].name != t.name then [ts[0]] else [];
      CountConcat(head, Retain(ts[1..], t), uuid, name);
    }
  }

  // ---------------------------------------------------------------------
  // Reconciliation (`update`)
  // ---------------------------------------------------------------------

  /** What a subdirectory of `./tasks` holds at `config.toml`: nothing, a file
      that cannot be read or parsed, or a task. */
  datatype Manifest = NoManifest | BadManifest(msg: string) | GoodManifest(task: Task)

  /** One entry of the `./tasks` listing, in `read_dir` order. */
  datatype Listed = ListedFile | ListedDir(manifest: Manifest)

  datatype Scanned = Scanned(records: seq<Task>, pending: seq<Task>, outcome: Outcome)

  /** The first loop of `update`: each directory with a parsable manifest is
      upserted and struck from the pending snapshot; a bad manifest aborts. */
  function Scan(records: seq<Task>, pending: seq<Task>, listing: seq<Listed>): Scanned
    decreases |listing|
  {
    if listing == [] then Scanned(records, pending, Pass)
    else
      match listing[0]
      case ListedFile => Scan(records, pending, listing[1..])
      case ListedDir(NoManifest) => Scan(records, pending, listing[1..])
      case ListedDir(BadManifest(m)) => Scanned(records, pending, Fail(m))
      case ListedDir(GoodManifest(t)) => Scan(Upsert(records, t), Retain(pending, t), listing[1..])
  }

  /** The second loop of `update`: delete each pending record's key, aborting at
      the first failure. */
  function DeleteAll(records: seq<Task>, pending: seq<Task>): (seq<Task>, Outcome)
    decreases |pending|
  {
    if pending == [] then (records, Pass)
    else
      match RemoveFirst(records, pending[0].uuid, pending[0].name)
      case Err(m) => (records, Fail(m))
      case Ok(rs) => DeleteAll(rs, pending[1..])
  }

  /** `update` as a whole, given whether `./tasks` exists and its listing. */
  function Reconcile(rs: seq<Task>, dirExists: bool, listing: seq<Listed>): (seq<Task>, Outcome) {
    if !dirExists then (rs, Fail("Data directory does not exist"))
    else
      var s := Scan(rs, rs, listing);
      if s.outcome.Fail? then (s.records, s.outcome) else DeleteAll(s.records, s.pending)
  }

  /** The tasks of the listing's parsable manifests, in listing order. */
  function Manifests(listing: seq<Listed>): seq<Task> {
    if listing == [] then []
    else
      (if listing[0].ListedDir? && listing[0].manifest.GoodManifest? then [listing[0].manifest.task] else [])
      + Manifests(listing[1..])
  }

  lemma {:induction false} ManifestsConcat(a: seq<Listed>, b: seq<Listed>)
    ensures Manifests(a + b) == Manifests(a) + Manifests(b)
  {
    if a != [] {
      assert (a + b)[1..] == a[1..] + b;
      ManifestsConcat(a[1..], b);
    } else {
      assert a + b == b;
    }
  }

  predicate IsBad(l: Listed) {
    l.ListedDir? && l.manifest.BadManifest?
  }

  predicate NoBadManifest(listing: seq<Listed>) {
    forall i :: 0 <= i < |listing| ==> !IsBad(listing[i])
  }

  function UpsertAll(rs: seq<Task>, ts: seq<Task>): seq<Task>
    decreases |ts|
  {
    if ts == [] then rs else UpsertAll(Upsert(rs, ts[0]), ts[1..])
  }

  function RetainAll(ps: seq<Task>, ts: seq<Task>): seq<Task>
    decreases |ts|
  {
    if ts == [] then ps else RetainAll(Retain(ps, ts[0]), ts[1..])
  }

  /** A key is stale when it shares neither its uuid nor its name with any task on disk. */
  predicate Stale(uuid: string, name: string, disk: seq<Task>) {
    forall t :: t in disk ==> t.uuid != uuid && t.name != name
  }

  /** Without a bad manifest the first loop amounts to upserting every task on
      disk and striking each one's overlaps from the snapshot. */
  lemma {:induction false} ScanShape(records: seq<Task>, pending: seq<Task>, listing: seq<Listed>)
    requires NoBadManifest(listing)
    ensures Scan(records, pending, listing)
      == Scanned(UpsertAll(records, Manifests(listing)), RetainAll(pending, Manifests(listing)), Pass)
    decreases |listing|
  {
    if listing != [] {
      assert NoBadManifest(listing[1..]) by {
        forall i | 0 <= i < |listing[1..]| ensures !IsBad(listing[1..][i]) { assert listing[1..][i] == listing[i + 1]; }
      }
      assert !IsBad(listing[0]);
      if listing[0].ListedDir? && listing[0].manifest.GoodManifest? {
        var t := listing[0].manifest.task;
        assert Manifests(listing) == [t] + Manifests(listing[1..]);
        ScanShape(Upsert(records, t), Retain(pending, t), listing[1..]);
      } else {
        assert Manifests(listing) == Manifests(listing[1..]);
        ScanShape(records, pending, listing[1..]);
      }
    }
  }

  /** A bad manifest aborts the scan there: the tasks before it stay upserted
      and nothing is deleted. */
  lemma {:induction false} ScanStops(records: seq<Task>, pending: seq<Task>, listing: seq<Listed>, k: nat)
    requires k < |listing| && IsBad(listing[k])
    requires NoBadManifest(listing[..k])
    ensures Scan(records, pending, listing).records == UpsertAll(records, Manifests(listing[..k]))
    ensures Scan(records, pending, listing).outcome == Fail(listing[k].manifest.msg)
    decreases k
  {
    if k == 0 {
      assert listing[..0] == [];
    } else {
      assert listing[1..][..k - 1] == listing[..k][1..];
      assert listing[..k][0] == listing[0];
      var shorter := listing[1..][..k - 1];
      assert NoBadManifest(shorter) by {
        forall i | 0 <= i < |shorter| ensures !IsBad(shorter[i]) {
          assert shorter[i] == listing[..k][i + 1];
        }
      }
      assert !IsBad(listing[0]) by { assert listing[..k][0] == listing[0]; }
      if listing[0].ListedDir? && listing[0].manifest.GoodManifest? {
        var t := listing[0].manifest.task;
        assert Manifests(listing[..k]) == [t] + Manifests(listing[1..][..k - 1]);
        ScanStops(Upsert(records, t), Retain(pending, t), listing[1..], k - 1);
      } else {
        assert Manifests(listing[..k]) == Manifests(listing[1..][..k - 1]);
        ScanStops(records, pending, listing[1..], k - 1);
      }
    }
  }

  lemma {:induction false} RetainAllFacts(ps: seq<Task>, ts: seq<Task>)
    ensures forall x :: x in RetainAll(ps, ts) ==> x in ps && Stale(x.uuid, x.name, ts)
    ensures forall u, n :: Stale(u, n, ts) ==> Count(RetainAll(ps, ts), u, n) == Count(ps, u, n)
    decreases |ts|
  {
    if ts != [] {
      var ps1 := Retain(ps, ts[0]);
      RetainAllFacts(ps1, ts[1..]);
      forall u, n | Stale(u, n, ts) ensures Count(RetainAll(ps, ts), u, n) == Count(ps, u, n) {
        assert ts[0] in ts;
        CountRetain(ps, ts[0], u, n);
        assert Stale(u, n, ts[1..]) by {
          forall t | t in ts[1..] ensures t.uuid != u && t.name != n { assert t in ts; }
        }
      }
      forall x | x in RetainAll(ps, ts) ensures x in ps && Stale(x.uuid, x.name, ts) {
        assert x in ps1;
        forall t | t in ts ensures t.uuid != x.uuid && t.name != x.name {
          if t != ts[0] { assert t in ts[1..]; }
        }
      }
    }
  }

  /** No task on disk has this key. */
  predicate Absent(uuid: string, name: string, disk: seq<Task>) {
    forall t :: t in disk ==> !HasKey(t, uuid, name)
  }

  lemma {:induction false} UpsertAllCounts(rs: seq<Task>, ts: seq<Task>)
    ensures forall u, n :: Absent(u, n, ts) ==> Count(UpsertAll(rs, ts), u, n) == Count(rs, u, n)
    ensures forall u, n :: Count(UpsertAll(rs, ts), u, n) >= Count(rs, u, n)
    decreases |ts|
  {
    if ts != [] {
      var rs1 := Upsert(rs, ts[0]);
      UpsertAllCounts(rs1, ts[1..]);
      forall u, n ensures Count(UpsertAll(rs, ts), u, n) >= Count(rs, u, n)
        && (Absent(u, n, ts) ==> Count(UpsertAll(rs, ts), u, n) == Count(rs, u, n))
      {
        CountUpsert(rs, ts[0], u, n);
        if Absent(u, n, ts) {
          assert ts[0] in ts;
          assert Absent(u, n, ts[1..]) by {
            forall t | t in ts[1..] ensures !HasKey(t, u, n) { assert t in ts; }
          }
        }
      }
    }
  }

  /** A record no later upsert touches survives the remaining upserts. */
  lemma {:induction false} UpsertAllKeeps(rs: seq<Task>, ts: seq<Task>, x: Task)
    requires x in rs
    requires forall t :: t in ts ==> !HasKey(t, x.uuid, x.name)
    ensures x in UpsertAll(rs, ts)
    decreases |ts|
  {
    if ts != [] {
      var rs1 := Upsert(rs, ts[0]);
      assert x in rs1 by {
        var j :| 0 <= j < |rs| && rs[j] == x;
        match Find(rs, ts[0].uuid, ts[0].name)
        case Some(i) => assert ts[0] in ts; assert i != j; assert rs1[j] == x;
        case None => assert rs1[j] == x;
      }
      forall t | t in ts[1..] ensures !HasKey(t, x.uuid, x.name) { assert t in ts; }
      UpsertAllKeeps(rs1, ts[1..], x);
    }
  }

  /** The last task on disk with a given key is recorded exactly. */
  lemma {:induction false} UpsertAllHasLast(rs: seq<Task>, ts: seq<Task>, i: nat)
    requires i < |ts|
    requires forall j :: i < j < |ts| ==> !HasKey(ts[j], ts[i].uuid, ts[i].name)
    ensures ts[i] in UpsertAll(rs, ts)
    decreases |ts|
  {
    var rs1 := Upsert(rs, ts[0]);
    if i == 0 {
      GetAfterUpsert(rs, ts[0]);
      GetFailsIffAbsent(rs1, ts[0].uuid, ts[0].name);
      assert ts[0] in rs1;
      forall t | t in ts[1..] ensures !HasKey(t, ts[0].uuid, ts[0].name) {
        var j :| 0 <= j < |ts[1..]| && ts[1..][j] == t;
        assert ts[j + 1] == t;
      }
      UpsertAllKeeps(rs1, ts[1..], ts[0]);
    } else {
      UpsertAllHasLast(rs1, ts[1..], i - 1);
    }
  }

  /** The deletion loop succeeds when every pending key is stored exactly as
      often as it is pending; it then removes every copy of those keys, only
      removes records, and keeps every record whose key is not pending. */
  lemma {:induction false} DeleteAllFacts(rs: seq<Task>, ps: seq<Task>)
    requires forall x :: x in ps ==> Count(rs, x.uuid, x.name) == Count(ps, x.uuid, x.name)
    ensures DeleteAll(rs, ps).1 == Pass
    ensures forall x :: x in ps ==> Count(DeleteAll(rs, ps).0, x.uuid, x.name) == 0
    ensures forall u, n :: Count(DeleteAll(rs, ps).0, u, n) <= Count(rs, u, n)
    ensures forall x :: x in rs && Count(ps, x.uuid, x.name) == 0 ==> x in DeleteAll(rs, ps).0
    decreases |ps|
  {
    DeleteAllOnlyRemoves(rs, ps);
    if ps != [] {
      var k := ps[0];
      assert Count(ps, k.uuid, k.name) > 0;
      RemoveFirstEffect(rs, k.uuid, k.name);
      var rs1 := RemoveFirst(rs, k.uuid, k.name).value;
      var tail := ps[1..];
      forall x | x in tail ensures Count(rs1, x.uuid, x.name) == Count(tail, x.uuid, x.name) {
        assert x in ps;
        CountRemoveFirst(rs, k, x.uuid, x.name);
      }
      DeleteAllFacts(rs1, tail);
      var fin := DeleteAll(rs, ps).0;
      assert fin == DeleteAll(rs1, tail).0;
      forall x | x in ps ensures Count(fin, x.uuid, x.name) == 0 {
        if !HasKey(x, k.uuid, k.name) {
          assert x in tail;
        } else {
          CountRemoveFirst(rs, k, k.uuid, k.name);
          assert Count(rs1, k.uuid, k.name) == Count(tail, k.uuid, k.name);
          if Count(tail, k.uuid, k.name) > 0 {
            var j :| 0 <= j < |tail| && HasKey(tail[j], k.uuid, k.name);
            assert tail[j] in tail;
          }
        }
      }
    }
  }

  /** Whether or not it succeeds, the deletion loop only removes records, and
      keeps every record whose key is not pending. */
  lemma {:induction false} DeleteAllOnlyRemoves(rs: seq<Task>, ps: seq<Task>)
    ensures forall u, n :: Count(DeleteAll(rs, ps).0, u, n) <= Count(rs, u, n)
    ensures forall x :: x in rs && Count(ps, x.uuid, x.name) == 0 ==> x in DeleteAll(rs, ps).0
    decreases |ps|
  {
    if ps != [] {
      var k := ps[0];
      if RemoveFirst(rs, k.uuid, k.name).Ok? {
        var rs1 := RemoveFirst(rs, k.uuid, k.name).value;
        DeleteAllOnlyRemoves(rs1, ps[1..]);
        forall u, n ensures Count(DeleteAll(rs, ps).0, u, n) <= Count(rs, u, n) {
          CountRemoveFirst(rs, k, u, n);
        }
        RemoveFirstMembers(rs, k);
        forall x | x in rs && Count(ps, x.uuid, x.name) == 0 ensures x in DeleteAll(rs, ps).0 {
          assert !HasKey(k, x.uuid, x.name);
          assert x in rs1;
        }
      }
    }
  }


  /** Each key left in the snapshot is stored after the scan exactly as often
      as it is pending. */
  lemma PendingCounts(rs: seq<Task>, disk: seq<Task>)
    ensures forall x :: x in RetainAll(rs, disk) ==>
      Count(UpsertAll(rs, disk), x.uuid, x.name) == Count(RetainAll(rs, disk), x.uuid, x.name)
  {
    RetainAllFacts(rs, disk);
    UpsertAllCounts(rs, disk);
    forall x | x in RetainAll(rs, disk)
      ensures Count(UpsertAll(rs, disk), x.uuid, x.name) == Count(RetainAll(rs, disk), x.uuid, x.name)
    {
      assert Absent(x.uuid, x.name, disk);
    }
  }

  /** The deletion loop run on what the scan leaves: it succeeds, keeps every
      record whose key is not stale and leaves no record with a stale key. */
  lemma DeletePhase(rs: seq<Task>, disk: seq<Task>)
    ensures var fin := DeleteAll(UpsertAll(rs, disk), RetainAll(rs, disk));
      && fin.1 == Pass
      && (forall x :: x in UpsertAll(rs, disk) && !Stale(x.uuid, x.name, disk) ==> x in fin.0)
      && (forall y :: y in fin.0 ==> !Stale(y.uuid, y.name, disk))
  {
    var scanned := UpsertAll(rs, disk);
    var ps := RetainAll(rs, disk);
    PendingCounts(rs, disk);
    RetainAllFacts(rs, disk);
    UpsertAllCounts(rs, disk);
    DeleteAllFacts(scanned, ps);
    var fin := DeleteAll(scanned, ps).0;
    forall x | x in scanned && !Stale(x.uuid, x.name, disk) ensures x in fin {
      if Count(ps, x.uuid, x.name) > 0 {
        assert false;
      }
    }
    forall y | y in fin ensures !Stale(y.uuid, y.name, disk) {
      if Stale(y.uuid, y.name, disk) {
        assert Absent(y.uuid, y.name, disk);
        assert false;
      }
    }
  }

  /** After a successful `update` (the directory exists, every manifest parses):
      the last task on disk for each key is recorded exactly; a pre-existing
      record sharing its uuid or its name with a task on disk keeps a record with
      its key; and no record is left that shares neither field with a task on
      disk. `update` then never fails in its deletion loop. */
  lemma ReconcileSuccess(rs: seq<Task>, listing: seq<Listed>)
    requires NoBadManifest(listing)
    ensures var (fin, o) := Reconcile(rs, true, listing); var disk := Manifests(listing);
      && o == Pass
      && (forall i :: 0 <= i < |disk| && (forall j :: i < j < |disk| ==> !HasKey(disk[j], disk[i].uuid, disk[i].name))
            ==> disk[i] in fin)
      && (forall x :: x in rs && !Stale(x.uuid, x.name, disk) ==> exists y :: y in fin && HasKey(y, x.uuid, x.name))
      && (forall y :: y in fin ==> !Stale(y.uuid, y.name, disk))
  {
    var disk := Manifests(listing);
    ScanShape(rs, rs, listing);
    var scanned := UpsertAll(rs, disk);
    assert Reconcile(rs, true, listing) == DeleteAll(scanned, RetainAll(rs, disk));
    DeletePhase(rs, disk);
    var fin := DeleteAll(scanned, RetainAll(rs, disk)).0;
    forall i | 0 <= i < |disk| && (forall j :: i < j < |disk| ==> !HasKey(disk[j], disk[i].uuid, disk[i].name))
      ensures disk[i] in fin
    {
      UpsertAllHasLast(rs, disk, i);
      assert disk[i] in disk;
    }
    forall x | x in rs && !Stale(x.uuid, x.name, disk) ensures exists y :: y in fin && HasKey(y, x.uuid, x.name) {
      UpsertAllCounts(rs, disk);
      assert Count(rs, x.uuid, x.name) > 0 by { var j :| 0 <= j < |rs| && rs[j] == x; }
      assert Count(scanned, x.uuid, x.name) > 0;
      var j :| 0 <= j < |scanned| && HasKey(scanned[j], x.uuid, x.name);
      assert scanned[j] in scanned;
      assert scanned[j] in fin;
    }
  }

  /** `update` on a missing `./tasks` fails and changes nothing. */
  lemma ReconcileWithoutDirectory(rs: seq<Task>, listing: seq<Listed>)
    ensures Reconcile(rs, false, listing) == (rs, Fail("Data directory does not exist"))
  {
  }

  /** A bad manifest aborts `update` with no rollback: the tasks listed before it
      stay upserted and no record is deleted. */
  lemma ReconcileAborts(rs: seq<Task>, listing: seq<Listed>, k: nat)
    requires k < |listing| && IsBad(listing[k])
    requires NoBadManifest(listing[..k])
    ensures Reconcile(rs, true, listing) == (UpsertAll(rs, Manifests(listing[..k])), Fail(listing[k].manifest.msg))
  {
    ScanStops(rs, rs, listing, k);
  }

  // ---------------------------------------------------------------------
  // The snapshot filter as evidently intended
  // ---------------------------------------------------------------------

  /** The record on disk under `(u2, "a")` strikes the stale record `(u1, "a")`
      from the snapshot because the names agree, so `update` keeps a record
      whose key no bundle on disk declares. */
  lemma SharedNameKeepsStaleRecord()
    ensures var stale := Task("u1", "a", "first");
      var current := Task("u2", "a", "second");
      var listing := [ListedDir(GoodManifest(current))];
      && Absent(stale.uuid, stale.name, Manifests(listing))
      && Reconcile([stale], true, listing) == ([stale, current], Pass)
  {
    var stale := Task("u1", "a", "first");
    var current := Task("u2", "a", "second");
    var listing := [ListedDir(GoodManifest(current))];
    assert Manifests(listing[1..]) == [];
    assert Find([stale], current.uuid, current.name) == None;
    assert Retain([stale], current) == [];
    assert Scan([stale], [stale], listing) == Scan([stale, current], [], listing[1..]);
  }

  /** The filter the comments of `update` describe: strike from the snapshot
      the records with the task's own key, and only those. */
  function RetainOthers(ts: seq<Task>, t: Task): (r: seq<Task>)
    ensures forall x :: x in r ==> x in ts && !HasKey(x, t.uuid, t.name)
  {
    if ts == [] then []
    else (if !HasKey(ts[0], t.uuid, t.name) then [ts[0]] else []) + RetainOthers(ts[1..], t)
  }

  /** The first loop of `update` with the intended filter. */
  function ScanIntended(records: seq<Task>, pending: seq<Task>, listing: seq<Listed>): Scanned
    decreases |listing|
  {
    if listing == [] then Scanned(records, pending, Pass)
    else
      match listing[0]
      case ListedFile => ScanIntended(records, pending, listing[1..])
      case ListedDir(NoManifest) => ScanIntended(records, pending, listing[1..])
      case ListedDir(BadManifest(m)) => Scanned(records, pending, Fail(m))
      case ListedDir(GoodManifest(t)) => ScanIntended(Upsert(records, t), RetainOthers(pending, t), listing[1..])
  }

  /** `update` with the intended filter. */
  function ReconcileIntended(rs: seq<Task>, dirExists: bool, listing: seq<Listed>): (seq<Task>, Outcome) {
    if !dirExists then (rs, Fail("Data directory does not exist"))
    else
      var s := ScanIntended(rs, rs, listing);
      if s.outcome.Fail? then (s.records, s.outcome) else DeleteAll(s.records, s.pending)
  }

  function RetainOthersAll(ps: seq<Task>, ts: seq<Task>): seq<Task>
    decreases |ts|
  {
    if ts == [] then ps else RetainOthersAll(RetainOthers(ps, ts[0]), ts[1..])
  }

  lemma {:induction false} CountRetainOthers(ts: seq<Task>, t: Task, uuid: string, name: string)
    requires !HasKey(t, uuid, name)
    ensures Count(RetainOthers(ts, t), uuid, name) == Count(ts, uuid, name)
  {
    if ts != [] {
      CountRetainOthers(ts[1..], t, uuid, name);
      var head := if !HasKey(ts[0], t.uuid, t.name) then [ts[0]] else [];
      CountConcat(head, RetainOthers(ts[1..], t), uuid, name);
    }
  }

  /** What the intended filter leaves are the records whose key no task on
      disk has, each as often as before. */
  lemma {:induction false} RetainOthersAllFacts(ps: seq<Task>, ts: seq<Task>)
    ensures forall x :: x in RetainOthersAll(ps, ts) ==> x in ps && Absent(x.uuid, x.name, ts)
    ensures forall u, n :: Absent(u, n, ts) ==> Count(RetainOthersAll(ps, ts), u, n) == Count(ps, u, n)
    decreases |ts|
  {
    if ts != [] {
      var ps1 := RetainOthers(ps, ts[0]);
      RetainOthersAllFacts(ps1, ts[1..]);
      forall u, n | Absent(u, n, ts) ensures Count(RetainOthersAll(ps, ts), u, n) == Count(ps, u, n) {
        assert ts[0] in ts;
        CountRetainOthers(ps, ts[0], u, n);
        assert Absent(u, n, ts[1..]) by {
          forall t | t in ts[1..] ensures !HasKey(t, u, n) { assert t in ts; }
        }
      }
      forall x | x in RetainOthersAll(ps, ts) ensures x in ps && Absent(x.uuid, x.name, ts) {
        assert x in ps1;
        forall t | t in ts ensures !HasKey(t, x.uuid, x.name) {
          if t != ts[0] { assert t in ts[1..]; }
        }
      }
    }
  }

  /** Without a bad manifest the intended first loop upserts every task on
      disk and strikes each one's key from the snapshot. */
  lemma {:induction false} ScanIntendedShape(records: seq<Task>, pending: seq<Task>, listing: seq<Listed>)
    requires NoBadManifest(listing)
    ensures ScanIntended(records, pending, listing)
      == Scanned(UpsertAll(records, Manifests(listing)), RetainOthersAll(pending, Manifests(listing)), Pass)
    decreases |listing|
  {
    if listing != [] {
      assert NoBadManifest(listing[1..]) by {
        forall i | 0 <= i < |listing[1..]| ensures !IsBad(listing[1..][i]) { assert listing[1..][i] == listing[i + 1]; }
      }
      assert !IsBad(listing[0]);
      if listing[0].ListedDir? && listing[0].manifest.GoodManifest? {
        var t := listing[0].manifest.task;
        assert Manifests(listing) == [t] + Manifests(listing[1..]);
        ScanIntendedShape(Upsert(records, t), RetainOthers(pending, t), listing[1..]);
      } else {
        assert Manifests(listing) == Manifests(listing[1..]);
        ScanIntendedShape(records, pending, listing[1..]);
      }
    }
  }

  /** Every task upserted leaves a record with its key. */
  lemma {:induction false} UpsertAllHasKey(rs: seq<Task>, ts: seq<Task>, t: Task)
    requires t in ts
    ensures Count(UpsertAll(rs, ts), t.uuid, t.name) > 0
    decreases |ts|
  {
    var rs1 := Upsert(rs, ts[0]);
    if t == ts[0] {
      GetAfterUpsert(rs, t);
      GetFailsIffAbsent(rs1, t.uuid, t.name);
      var j :| 0 <= j < |rs1| && rs1[j] == Get(rs1, t.uuid, t.name).value;
      UpsertAllCounts(rs1, ts[1..]);
    } else {
      assert t in ts[1..];
      UpsertAllHasKey(rs1, ts[1..], t);
    }
  }

  /** The intended deletion phase: it succeeds, keeps every record whose key is
      on disk and removes every record whose key is not. */
  lemma DeletePhaseIntended(rs: seq<Task>, disk: seq<Task>)
    ensures var fin := DeleteAll(UpsertAll(rs, disk), RetainOthersAll(rs, disk));
      && fin.1 == Pass
      && (forall x :: x in UpsertAll(rs, disk) && !Absent(x.uuid, x.name, disk) ==> x in fin.0)
      && (forall u, n :: Absent(u, n, disk) ==> Count(fin.0, u, n) == 0)
  {
    var scanned := UpsertAll(rs, disk);
    var ps := RetainOthersAll(rs, disk);
    RetainOthersAllFacts(rs, disk);
    UpsertAllCounts(rs, disk);
    DeleteAllFacts(scanned, ps);
    var fin := DeleteAll(scanned, ps).0;
    forall x | x in scanned && !Absent(x.uuid, x.name, disk) ensures x in fin {
      if Count(ps, x.uuid, x.name) > 0 {
        assert false;
      }
    }
    forall u, n | Absent(u, n, disk) ensures Count(fin, u, n) == 0 {
      if Count(rs, u, n) > 0 {
        var j :| 0 <= j < |ps| && HasKey(ps[j], u, n);
        assert ps[j] in ps;
      }
    }
  }

  /** After a successful intended `update` the registry holds a key exactly
      when a bundle on disk declares it, and the last task on disk for each
      key is recorded exactly. */
  lemma ReconcileIntendedSuccess(rs: seq<Task>, listing: seq<Listed>)
    requires NoBadManifest(listing)
    ensures var (fin, o) := ReconcileIntended(rs, true, listing); var disk := Manifests(listing);
      && o == Pass
      && (forall u, n :: Count(fin, u, n) > 0 <==> !Absent(u, n, disk))
      && (forall i :: 0 <= i < |disk| && (forall j :: i < j < |disk| ==> !HasKey(disk[j], disk[i].uuid, disk[i].name))
            ==> disk[i] in fin)
  {
    var disk := Manifests(listing);
    ScanIntendedShape(rs, rs, listing);
    var scanned := UpsertAll(rs, disk);
    assert ReconcileIntended(rs, true, listing) == DeleteAll(scanned, RetainOthersAll(rs, disk));
    DeletePhaseIntended(rs, disk);
    var fin := DeleteAll(scanned, RetainOthersAll(rs, disk)).0;
    forall u, n | !Absent(u, n, disk) ensures Count(fin, u, n) > 0 {
      var t :| t in disk && HasKey(t, u, n);
      UpsertAllHasKey(rs, disk, t);
      var j :| 0 <= j < |scanned| && HasKey(scanned[j], u, n);
      assert scanned[j] in scanned;
      assert scanned[j] in fin;
      var k :| 0 <= k < |fin| && fin[k] == scanned[j];
    }
    forall i | 0 <= i < |disk| && (forall j :: i < j < |disk| ==> !HasKey(disk[j], disk[i].uuid, disk[i].name))
      ensures disk[i] in fin
    {
      UpsertAllHasLast(rs, disk, i);
      assert disk[i] in disk;
    }
  }

  /** On the listing that exposes the filter, the intended `update` drops the
      stale record. */
  lemma SharedNameIntended()
    ensures var stale := Task("u1", "a", "first");
      var current := Task("u2", "a", "second");
      ReconcileIntended([stale], true, [ListedDir(GoodManifest(current))]) == ([current], Pass)
  {
    var stale := Task("u1", "a", "first");
    var current := Task("u2", "a", "second");
    var listing := [ListedDir(GoodManifest(current))];
    assert Find([stale], current.uuid, current.name) == None;
    assert RetainOthers([stale], current) == [stale];
    assert ScanIntended([stale], [stale], listing) == ScanIntended([stale, current], [stale], listing[1..]);
    assert ScanIntended([stale, current], [stale], []) == Scanned([stale, current], [stale], Pass);
    assert Find([stale, current], stale.uuid, stale.name) == Some(0);
    assert [stale, current][..0] + [stale, current][1..] == [current];
    assert RemoveFirst([stale, current], stale.uuid, stale.name) == Ok([current]);
    assert DeleteAll([stale, current], [stale]) == DeleteAll([current], []);
  }

  // ---------------------------------------------------------------------
  // The database object
  // ---------------------------------------------------------------------

  class TaskDatabase {
    /** The `tasks` collection, in storage order. */
    var records: seq<Task>

    /** `TaskDatabase::new`: opens a store holding `initial`. */
    constructor (initial: seq<Task>)
      ensures records == initial
    {
      records := initial;
    }

    method AddTask(t: Task)
      modifies this
      ensures records == Upsert(old(records), t)
      ensures Get(records, t.uuid, t.name) == Ok(t)
    {
      var found := Find(records, t.uuid, t.name);
      if found.Some? {
        var i := found.value;
        records := records[i := records[i].(description := t.description)];
      } else {
        records := records + [t];
      }
      GetAfterUpsert(old(records), t);
    }

    method GetTask(uuid: string, name: string) returns (r: Result<Task>)
      ensures r.Err? <==> forall x :: x in records ==> !HasKey(x, uuid, name)
      ensures r.Err? ==> r.msg == "Task not found"
      ensures r.Ok? ==> r.value in records && HasKey(r.value, uuid, name)
      ensures r.Ok? ==> exists i :: (0 <= i < |records| && r.value == records[i]
        && forall j :: 0 <= j < i ==> !HasKey(records[j], uuid, name))
    {
      r := Get(records, uuid, name);
      GetFailsIffAbsent(records, uuid, name);
    }

    method GetAllTasks() returns (ts: seq<Task>)
      ensures ts == records
    {
      ts := records;
    }

    method DeleteTasks(uuid: string, name: string) returns (r: Outcome)
      modifies this
      ensures r.Fail? <==> RemoveFirst(old(records), uuid, name).Err?
      ensures r.Fail? ==> r.msg == "Task not found" && records == old(records)
      ensures r.Pass? ==> records == RemoveFirst(old(records), uuid, name).value
    {
      var removed := RemoveFirst(records, uuid, name);
      if removed.Err? {
        return Fail(removed.msg);
      }
      records := removed.value;
      r := Pass;
    }

    /** `update`: the scan over the `./tasks` listing, then the deletion of what
        the snapshot still holds. */
    method Update(dirExists: bool, listing: seq<Listed>) returns (r: Outcome)
      modifies this
      ensures (records, r) == Reconcile(old(records), dirExists, listing)
    {
      if !dirExists {
        return Fail("Data directory does not exist");
      }
      var pending := GetAllTasks();
      var i := 0;
      while i < |listing|
        invariant 0 <= i <= |listing|
        invariant Scan(records, pending, listing[i..]) == Scan(old(records), old(records), listing)
      {
        assert listing[i..][1..] == listing[i + 1..];
        match listing[i] {
          case ListedFile =>
          case ListedDir(NoManifest) =>
          case ListedDir(BadManifest(m)) =>
            return Fail(m);
          case ListedDir(GoodManifest(t)) =>
            AddTask(t);
            pending := Retain(pending, t);
        }
        i := i + 1;
      }
      assert listing[i..] == [];
      ghost var scanned := records;
      var j := 0;
      while j < |pending|
        invariant 0 <= j <= |pending|
        invariant DeleteAll(records, pending[j..]) == DeleteAll(scanned, pending)
      {
        assert pending[j..][1..] == pending[j + 1..];
        var d := DeleteTasks(pending[j].uuid, pending[j].name);
        if d.Fail? {
          return d;
        }
        j := j + 1;
      }
      assert pending[j..] == [];
      r := Pass;
    }
  }
}

=== FILE: rendering.dfy ===
/** How a handler's result becomes the HTTP response: the `Success` value and
    the two `AppError` kinds, each rendered onto the response the handler has
    already prepared. */
module Rendering {
  import opened Common

  /** The JSON values the handlers produce through `From`: an integer, a string,
      `()` (null) and the task list. */
  datatype Json = JInt(i: int) | JStr(s: string) | JNull | JTasks(tasks: seq<Task>)

  /** What a response carries: nothing yet, a JSON document, plain text, or a file. */
  datatype Body = NoBody | JsonBody(json: Json) | TextBody(text: string) | FileBody(bytes: Bytes)

  /** The response under construction; `None` while no status has been set. */
  datatype Response = Response(status: Option<int>, body: Body)

  /** The response a handler starts from. */
  const Fresh := Response(None, NoBody)

  /** `AppError`: both variants are built by `From` from the error they wrap,
      whose display text is `msg`. */
  datatype AppError = AnyHow(msg: string) | Io(msg: string)

  /** `AppResult`. */
  datatype AppResult = Success(value: Json) | Failure(error: AppError)

  /** `res.stuff(status, body)`: both status and body are replaced. */
  function Stuff(status: int, body: Body): Response {
    Response(Some(status), body)
  }

  /** The text an error is rendered with. */
  function ErrorText(e: AppError): (t: string)
    ensures e.AnyHow? ==> t == "Internal Server Error: " + e.msg
    ensures e.Io? ==> t == "IO Error: " + e.msg
  {
    match e
    case AnyHow(m) => "Internal Server Error: " + m
    case Io(m) => "IO Error: " + m
  }

  /** `Scribe::render` of a handler's result onto the response it prepared. */
  function Render(r: AppResult, res: Response): (out: Response)
    ensures r.Success? && r.value == JInt(0) ==> out == res
    ensures r.Success? && r.value != JInt(0) ==> out == Response(Some(StatusOk), JsonBody(r.value))
    ensures r.Failure? ==> out == Response(Some(StatusInternalServerError), JsonBody(JStr(ErrorText(r.error))))
  {
    match r
    case Success(v) => if v == JInt(0) then res else Stuff(StatusOk, JsonBody(v))
    case Failure(e) => Stuff(StatusInternalServerError, JsonBody(JStr(ErrorText(e))))
  }

  /** The integer 0 is the only value whose rendering keeps every prepared
      response as it was: it is how a handler that has written its own
      response (304, a file) returns without having it overwritten. */
  lemma OnlyZeroKeepsResponse(v: Json)
    ensures (forall res :: Render(Success(v), res) == res) <==> v == JInt(0)
  {
    if v != JInt(0) {
      assert Render(Success(v), Fresh) != Fresh;
    }
  }

  /** Every error, including "Task not found", is answered with status 500:
      no handler result ever renders as a 4xx. */
  lemma ErrorsAreServerErrors(r: AppResult, res: Response)
    requires r.Failure?
    ensures Render(r, res).status == Some(StatusInternalServerError)
    ensures !(400 <= Render(r, res).status.value < 500)
  {
  }

  /** Distinct errors are told apart by the rendered body: the kind and the
      message can be read back from it. */
  lemma {:induction false} ErrorTextInjective(e1: AppError, e2: AppError)
    requires ErrorText(e1) == ErrorText(e2)
    ensures e1 == e2
  {
    var t := ErrorText(e1);
    // The second character tells the two kinds apart.
    assert t[1] == (if e1.AnyHow? then 'n' else 'O');
    assert ErrorText(e2)[1] == (if e2.AnyHow? then 'n' else 'O');
    if e1.AnyHow? {
      var p := "Internal Server Error: ";
      assert e1.msg == t[|p|..] == e2.msg;
    } else {
      var p := "IO Error: ";
      assert e1.msg == t[|p|..] == e2.msg;
    }
  }
}

=== FILE: router.dfy ===
/** The server's request handlers: a `Server` holds the children of `./tasks`
    and the task registry; each handler is a method proved to act as its
    specification function, and the lemmas state what the handlers promise. */
module Router {
  import opened Common
  import opened Archive
  import opened Registry
  import opened Rendering

  /** `format!("{}-{}", name, uuid)`: the name of a task bundle's directory. */
  function BundleKey(name: string, uuid: string): string {
    name + "-" + uuid
  }

  /** The temporary archive built next to the bundle directory. */
  function BundleZip(key: string): string {
    key + ".zip"
  }

  /** The bytes `create_zip` writes for the bundle directory `key`. */
  function BundleArchive(tasks: Area, key: string, order: seq<string>, env: Env): Bytes
    requires key in tasks && tasks[key].Directory?
  {
    env.zipWrite(Packed(tasks[key].contents, order))
  }

  // ---------------------------------------------------------------------
  // download_task
  // ---------------------------------------------------------------------

  datatype Download = Download(tasks: Area, result: AppResult, res: Response)

  /** `download_task` on `./tasks`, the request form, the `read_dir` order of the
      bundle directory and the response handed to the handler. */
  function DownloadSpec(tasks: Area, form: Form, order: seq<string>, env: Env, res: Response): Download {
    if "name" !in form then Download(tasks, Failure(AnyHow("Task name not found")), res)
    else if "uuid" !in form then Download(tasks, Failure(AnyHow("Task UUID not found")), res)
    else if "md5" !in form then Download(tasks, Failure(AnyHow("Task md5 not found")), res)
    else
      var key := BundleKey(form["name"], form["uuid"]);
      if key !in tasks || !tasks[key].Directory? then Download(tasks, Failure(AnyHow("Task not found")), res)
      else
        var (built, o) := CreateZipSpec(tasks, key, BundleZip(key), order, env);
        if o.Fail? then Download(built, Failure(Io(o.msg)), res)
        else
          var zip := built[BundleZip(key)].bytes;
          var sent := if form["md5"] == env.md5(zip) then Stuff(StatusNotModified, TextBody(""))
                      else Stuff(StatusOk, FileBody(zip));
          Download(built - {BundleZip(key)}, Success(JInt(0)), sent)
  }

  /** The request names an existing bundle directory. */
  predicate ValidDownload(tasks: Area, form: Form) {
    "name" in form && "uuid" in form && "md5" in form
    && BundleKey(form["name"], form["uuid"]) in tasks
    && tasks[BundleKey(form["name"], form["uuid"])].Directory?
  }

  /** The form fields are checked in the order name, uuid, md5, then the bundle
      directory; each failure is an `AnyHow` error, returned before any archive
      is built, with `./tasks` and the response left as they were. These are
      the only `AnyHow` errors of the handler. */
  lemma DownloadValidation(tasks: Area, form: Form, order: seq<string>, env: Env, res: Response)
    ensures var d := DownloadSpec(tasks, form, order, env, res);
      && (d.result.Failure? && d.result.error.AnyHow? <==> !ValidDownload(tasks, form))
      && (!ValidDownload(tasks, form) ==> d.tasks == tasks && d.res == res)
      && ("name" !in form ==> d.result == Failure(AnyHow("Task name not found")))
      && ("name" in form && "uuid" !in form ==> d.result == Failure(AnyHow("Task UUID not found")))
      && ("name" in form && "uuid" in form && "md5" !in form ==> d.result == Failure(AnyHow("Task md5 not found")))
      && (("name" in form && "uuid" in form && "md5" in form && !ValidDownload(tasks, form))
            ==> d.result == Failure(AnyHow("Task not found")))
  {
  }

  /** A valid request whose temporary archive path is free of a directory
      succeeds with the "leave the response alone" value, so the response the
      handler prepared is what the client receives; the archive is removed
      again and nothing else in `./tasks` changes. The reply is 304 with an
      empty body exactly when the client's digest string equals the digest of
      the archive just built; otherwise it is 200 carrying that same archive. */
  lemma DownloadNegotiation(tasks: Area, form: Form, order: seq<string>, env: Env, res: Response)
    requires ValidDownload(tasks, form)
    requires var key := BundleKey(form["name"], form["uuid"]);
      !(BundleZip(key) in tasks && tasks[BundleZip(key)].Directory?)
    ensures var key := BundleKey(form["name"], form["uuid"]);
      var zip := BundleArchive(tasks, key, order, env);
      var d := DownloadSpec(tasks, form, order, env, res);
      && d.result == Success(JInt(0))
      && Render(d.result, d.res) == d.res
      && d.tasks == tasks - {BundleZip(key)}
      && (d.res.status == Some(StatusNotModified) <==> form["md5"] == env.md5(zip))
      && (d.res.status == Some(StatusNotModified) ==> d.res.body == TextBody(""))
      && (d.res.status != Some(StatusNotModified) ==>
            d.res == Response(Some(StatusOk), FileBody(zip)) && env.md5(zip) != form["md5"])
  {
    var key := BundleKey(form["name"], form["uuid"]);
    assert key != BundleZip(key) by { assert |BundleZip(key)| == |key| + 4; }
  }

  /** When the temporary archive path is a directory, the handler fails with an
      I/O error and nothing is sent. */
  lemma DownloadZipPathBlocked(tasks: Area, form: Form, order: seq<string>, env: Env, res: Response)
    requires ValidDownload(tasks, form)
    requires var key := BundleKey(form["name"], form["uuid"]);
      BundleZip(key) in tasks && tasks[BundleZip(key)].Directory?
    ensures var d := DownloadSpec(tasks, form, order, env, res);
      d.result == Failure(Io("Is a directory")) && d.tasks == tasks && d.res == res
  {
  }

  // ---------------------------------------------------------------------
  // upload_task
  // ---------------------------------------------------------------------

  /** The multipart part named `file`: the file name it declares, if any, and its bytes. */
  datatype Upload = Upload(fileName: Option<string>, data: Bytes)

  datatype Uploaded = Uploaded(tasks: Area, records: seq<Task>, result: AppResult)

  /** Reading and parsing `config.toml` in an unpacked bundle directory. */
  function ReadManifest(d: Dir, env: Env): Result<Task> {
    if "config.toml" !in d then Err("config.toml not found")
    else
      match d["config.toml"]
      case Folder => Err("Is a directory")
      case File(data, _) =>
        match env.parseTask(data)
        case NotUtf8 => Err("stream did not contain valid UTF-8")
        case BadToml(m) => Err("Failed to parse config.toml: " + m)
        case Parsed(t) => Ok(t)
  }

  /** The error a failed manifest read turns into. */
  function ManifestError(d: Dir, env: Env): AppError
    requires ReadManifest(d, env).Err?
  {
    var m := ReadManifest(d, env).msg;
    if "config.toml" in d && d["config.toml"].File? && env.parseTask(d["config.toml"].data).BadToml?
    then AnyHow(m)
    else if "config.toml" !in d then AnyHow(m)
    else Io(m)
  }

  /** `upload_task`: the destination is `./tasks/<declared file name>`; an
      existing one is removed, the archive is unpacked there, and the task read
      from its `config.toml` is upserted. `stamp` is the metadata unpacked files get. */
  function UploadSpec(tasks: Area, records: seq<Task>, file: Option<Upload>, env: Env, stamp: Meta): Uploaded {
    if file.None? then Uploaded(tasks, records, Failure(AnyHow("No file uploaded")))
    else if file.value.fileName.None? then Uploaded(tasks, records, Failure(AnyHow("File name not found")))
    else
      var dest := file.value.fileName.value;
      if dest in tasks && tasks[dest].PlainFile? then Uploaded(tasks, records, Failure(Io("Not a directory")))
      else
        var (unpacked, o) := UnpackSpec(tasks - {dest}, dest, file.value.data, env, stamp);
        if o.Fail? then Uploaded(unpacked, records, Failure(Io(o.msg)))
        else
          var d := unpacked[dest].contents;
          match ReadManifest(d, env)
          case Err(_) => Uploaded(unpacked, records, Failure(ManifestError(d, env)))
          case Ok(t) => Uploaded(unpacked, Upsert(records, t), Success(JStr("upload successfully")))
  }

  /** A successful upload replaces the destination with exactly what the archive
      unpacks to in an empty directory (nothing of a previous bundle survives),
      leaves every other child of `./tasks` alone, and records the task named
      by the unpacked `config.toml`, whatever the uploaded file was called. */
  lemma UploadSuccess(tasks: Area, records: seq<Task>, file: Option<Upload>, env: Env, stamp: Meta)
    requires UploadSpec(tasks, records, file, env, stamp).result.Success?
    ensures var u := UploadSpec(tasks, records, file, env, stamp);
      var dest := file.value.fileName.value;
      var es := env.zipRead(file.value.data).value;
      && file.Some? && file.value.fileName.Some? && env.zipRead(file.value.data).Some?
      && u.tasks == tasks[dest := Directory(WriteAll(map[], es, stamp).dir)]
      && ReadManifest(u.tasks[dest].contents, env).Ok?
      && var t := ReadManifest(u.tasks[dest].contents, env).value;
         u.records == Upsert(records, t) && Get(u.records, t.uuid, t.name) == Ok(t)
  {
    var dest := file.value.fileName.value;
    var (unpacked, _) := UnpackSpec(tasks - {dest}, dest, file.value.data, env, stamp);
    var t := ReadManifest(unpacked[dest].contents, env).value;
    GetAfterUpsert(records, t);
  }

  /** An archive without `config.toml` is refused after it has been unpacked:
      the registry is untouched but the unpacked directory stays. */
  lemma UploadWithoutManifest(tasks: Area, records: seq<Task>, up: Upload, env: Env, stamp: Meta)
    requires up.fileName.Some?
    requires !(up.fileName.value in tasks && tasks[up.fileName.value].PlainFile?)
    requires env.zipRead(up.data).Some?
    requires WriteAll(map[], env.zipRead(up.data).value, stamp).outcome == Pass
    requires "config.toml" !in WriteAll(map[], env.zipRead(up.data).value, stamp).dir
    ensures var u := UploadSpec(tasks, records, Some(up), env, stamp);
      var dest := up.fileName.value;
      && u.result == Failure(AnyHow("config.toml not found"))
      && u.records == records
      && u.tasks == tasks[dest := Directory(WriteAll(map[], env.zipRead(up.data).value, stamp).dir)]
  {
  }

  /** Every failure leaves the registry as it was. */
  lemma UploadFailureKeepsRegistry(tasks: Area, records: seq<Task>, file: Option<Upload>, env: Env, stamp: Meta)
    requires UploadSpec(tasks, records, file, env, stamp).result.Failure?
    ensures UploadSpec(tasks, records, file, env, stamp).records == records
  {
  }

  // ---------------------------------------------------------------------
  // delete_task
  // ---------------------------------------------------------------------

  datatype Deleted = Deleted(tasks: Area, records: seq<Task>, result: AppResult)

  /** `delete_task`: the bundle directory is removed first, then one registry
      record with the form's key. */
  function DeleteSpec(tasks: Area, records: seq<Task>, form: Form): Deleted {
    if "name" !in form then Deleted(tasks, records, Failure(AnyHow("Task name not found")))
    else if "uuid" !in form then Deleted(tasks, records, Failure(AnyHow("Task UUID not found")))
    else
      var key := BundleKey(form["name"], form["uuid"]);
      if key !in tasks || !tasks[key].Directory? then Deleted(tasks, records, Failure(AnyHow("Task not found")))
      else
        match RemoveFirst(records, form["uuid"], form["name"])
        case Err(m) => Deleted(tasks - {key}, records, Failure(AnyHow(m)))
        case Ok(rs) => Deleted(tasks - {key}, rs, Success(JStr("delete successfully")))
  }

  /** Without a bundle directory for the key the handler fails with
      "Task not found" and changes nothing. With one, the directory is gone
      afterwards even when the registry has no record to delete; the registry
      loses exactly the first record with the key. */
  lemma DeleteEffect(tasks: Area, records: seq<Task>, form: Form)
    requires "name" in form && "uuid" in form
    ensures var key := BundleKey(form["name"], form["uuid"]);
      var d := DeleteSpec(tasks, records, form);
      && (key !in tasks || !tasks[key].Directory? ==>
            d == Deleted(tasks, records, Failure(AnyHow("Task not found"))))
      && (key in tasks && tasks[key].Directory? ==>
            && d.tasks == tasks - {key}
            && (d.result.Success? <==> exists x :: x in records && HasKey(x, form["uuid"], form["name"]))
            && (d.result.Success? ==> d.records == RemoveFirst(records, form["uuid"], form["name"]).value)
            && (d.result.Failure? ==> d.records == records && d.result == Failure(AnyHow("Task not found"))))
  {
    RemoveFirstEffect(records, form["uuid"], form["name"]);
  }

  // ---------------------------------------------------------------------
  // update_database
  // ---------------------------------------------------------------------

  /** What `update` sees of one child of `./tasks`: a file is skipped, a
      directory without `config.toml` too; the manifest is read and parsed,
      and a parse error is passed on as the parser reports it. `update` and
      `upload_task` accept exactly the same manifests as the same task. */
  function ListEntry(t: Top, env: Env): (l: Listed)
    ensures l == ListedFile <==> t.PlainFile?
    ensures l == ListedDir(NoManifest) <==> t.Directory? && "config.toml" !in t.contents
    ensures l.ListedDir? && l.manifest.GoodManifest? <==> t.Directory? && ReadManifest(t.contents, env).Ok?
    ensures l.ListedDir? && l.manifest.GoodManifest? ==> l.manifest.task == ReadManifest(t.contents, env).value
    ensures t.Directory? && "config.toml" in t.contents && t.contents["config.toml"].File?
      && env.parseTask(t.contents["config.toml"].data).BadToml?
      ==> l == ListedDir(BadManifest(env.parseTask(t.contents["config.toml"].data).msg))
  {
    match t
    case PlainFile(_) => ListedFile
    case Directory(d) =>
      if "config.toml" !in d then ListedDir(NoManifest)
      else
        match d["config.toml"]
        case Folder => ListedDir(BadManifest("Is a directory"))
        case File(data, _) =>
          match env.parseTask(data)
          case NotUtf8 => ListedDir(BadManifest("stream did not contain valid UTF-8"))
          case BadToml(m) => ListedDir(BadManifest(m))
          case Parsed(task) => ListedDir(GoodManifest(task))
  }

  /** The names of `order` that are children of `./tasks`, in order. */
  function Present(tasks: Area, order: seq<string>): (ns: seq<string>)
    ensures forall n :: n in ns <==> n in order && n in tasks
    ensures |ns| <= |order|
  {
    if order == [] then []
    else (if order[0] in tasks then [order[0]] else []) + Present(tasks, order[1..])
  }

  /** The `read_dir` listing of `./tasks` in the order `order`: one entry per
      child named, in that order, each the entry that child is seen as. */
  function Listing(tasks: Area, order: seq<string>, env: Env): (l: seq<Listed>)
    ensures var ns := Present(tasks, order);
      |l| == |ns| && forall k :: 0 <= k < |l| ==> ns[k] in tasks && l[k] == ListEntry(tasks[ns[k]], env)
  {
    if order == [] then []
    else (if order[0] in tasks then [ListEntry(tasks[order[0]], env)] else []) + Listing(tasks, order[1..], env)
  }

  /** A bundle directory whose manifest parses contributes its task to the
      reconciliation, and only such directories do. */
  lemma {:induction false} ListingManifests(tasks: Area, order: seq<string>, env: Env)
    ensures forall t :: t in Manifests(Listing(tasks, order, env)) <==>
      exists n :: n in order && n in tasks && tasks[n].Directory? && ReadManifest(tasks[n].contents, env) == Ok(t)
  {
    if order != [] {
      ListingManifests(tasks, order[1..], env);
      var head := if order[0] in tasks then [ListEntry(tasks[order[0]], env)] else [];
      assert Listing(tasks, order, env) == head + Listing(tasks, order[1..], env);
      ManifestsConcat(head, Listing(tasks, order[1..], env));
      forall t ensures t in Manifests(Listing(tasks, order, env)) <==>
        exists n :: n in order && n in tasks && tasks[n].Directory? && ReadManifest(tasks[n].contents, env) == Ok(t)
      {
        if exists n :: n in order && n in tasks && tasks[n].Directory? && ReadManifest(tasks[n].contents, env) == Ok(t) {
          var n :| n in order && n in tasks && tasks[n].Directory? && ReadManifest(tasks[n].contents, env) == Ok(t);
          if n != order[0] {
            assert n in order[1..];
          }
        }
        if t in Manifests(Listing(tasks, order[1..], env)) {
          var n :| n in order[1..] && n in tasks && tasks[n].Directory? && ReadManifest(tasks[n].contents, env) == Ok(t);
          assert n in order;
        }
      }
    }
  }

  // ---------------------------------------------------------------------
  // auth_middleware
  // ---------------------------------------------------------------------

  /** `auth_middleware`: the `Authorization` header is compared with the
      configured password. */
  function Authorize(header: Option<string>, password: string, res: Response): (out: Response)
    ensures header == Some(password) ==> out == res
    ensures header.Some? && header.value != password ==> out == Stuff(StatusUnauthorized, JsonBody(JStr("Unauthorized")))
    ensures header.None? ==> out == Stuff(StatusUnauthorized, JsonBody(JStr("Missing Authorization header")))
  {
    match header
    case Some(h) => if h != password then Stuff(StatusUnauthorized, JsonBody(JStr("Unauthorized"))) else res
    case None => Stuff(StatusUnauthorized, JsonBody(JStr("Missing Authorization header")))
  }

  /** Only the exact password leaves every response alone; everything else is a 401. */
  lemma AuthorizeExact(header: Option<string>, password: string)
    ensures (forall res :: Authorize(header, password, res) == res) <==> header == Some(password)
    ensures header != Some(password) ==> forall res :: Authorize(header, password, res).status == Some(StatusUnauthorized)
  {
    if header != Some(password) {
      assert Authorize(header, password, Fresh) != Fresh;
    }
  }

  // ---------------------------------------------------------------------
  // The server
  // ---------------------------------------------------------------------

  /** The server's state: the children of `./tasks` and the registry. */
  class Server {
    var tasks: Area
    const db: TaskDatabase

    constructor (tasks: Area, db: TaskDatabase)
      ensures this.tasks == tasks && this.db == db
    {
      this.tasks := tasks;
      this.db := db;
    }

    /** `list_tasks`. */
    method ListTasks() returns (r: AppResult)
      ensures r == Success(JTasks(db.records))
    {
      var ts := db.GetAllTasks();
      r := Success(JTasks(ts));
    }

    /** `download_task`; `order` is the `read_dir` order of the bundle directory. */
    method DownloadTask(form: Form, order: seq<string>, env: Env, res0: Response) returns (r: AppResult, res: Response)
      modifies this
      ensures Download(tasks, r, res) == DownloadSpec(old(tasks), form, order, env, res0)
    {
      res := res0;
      if "name" !in form { return Failure(AnyHow("Task name not found")), res; }
      if "uuid" !in form { return Failure(AnyHow("Task UUID not found")), res; }
      if "md5" !in form { return Failure(AnyHow("Task md5 not found")), res; }
      var key := BundleKey(form["name"], form["uuid"]);
      if key !in tasks || !tasks[key].Directory? {
        return Failure(AnyHow("Task not found")), res;
      }
      var zipPath := BundleZip(key);
      var built, o := CreateZip(tasks, key, zipPath, order, env);
      tasks := built;
      if o.Fail? {
        return Failure(Io(o.msg)), res;
      }
      var zip := tasks[zipPath].bytes;
      if form["md5"] == env.md5(zip) {
        tasks := tasks - {zipPath};
        res := Stuff(StatusNotModified, TextBody(""));
        return Success(JInt(0)), res;
      }
      res := Stuff(StatusOk, FileBody(zip));
      tasks := tasks - {zipPath};
      r := Success(JInt(0));
    }

    /** `upload_task`; `stamp` is the metadata unpacked files get. */
    method UploadTask(file: Option<Upload>, env: Env, stamp: Meta) returns (r: AppResult)
      modifies this, db
      ensures Uploaded(tasks, db.records, r) == UploadSpec(old(tasks), old(db.records), file, env, stamp)
    {
      if file.None? { return Failure(AnyHow("No file uploaded")); }
      if file.value.fileName.None? { return Failure(AnyHow("File name not found")); }
      var dest := file.value.fileName.value;
      if dest in tasks {
        if tasks[dest].PlainFile? {
          return Failure(Io("Not a directory"));
        }
        tasks := tasks - {dest};
      }
      assert tasks == old(tasks) - {dest};
      var unpacked, o := UnpackZip(tasks, dest, file.value.data, env, stamp);
      tasks := unpacked;
      if o.Fail? {
        return Failure(Io(o.msg));
      }
      var d := tasks[dest].contents;
      var manifest := ReadManifest(d, env);
      if manifest.Err? {
        return Failure(ManifestError(d, env));
      }
      db.AddTask(manifest.value);
      r := Success(JStr("upload successfully"));
    }

    /** `delete_task`. */
    method DeleteTask(form: Form) returns (r: AppResult)
      modifies this, db
      ensures Deleted(tasks, db.records, r) == DeleteSpec(old(tasks), old(db.records), form)
    {
      if "name" !in form { return Failure(AnyHow("Task name not found")); }
      if "uuid" !in form { return Failure(AnyHow("Task UUID not found")); }
      var key := BundleKey(form["name"], form["uuid"]);
      if key !in tasks || !tasks[key].Directory? {
        return Failure(AnyHow("Task not found"));
      }
      tasks := tasks - {key};
      var o := db.DeleteTasks(form["uuid"], form["name"]);
      if o.Fail? {
        return Failure(AnyHow(o.msg));
      }
      r := Success(JStr("delete successfully"));
    }

    /** `update_database`; `dirExists` says whether `./tasks` exists and `order`
        is its `read_dir` order. */
    method UpdateDatabase(dirExists: bool, order: seq<string>, env: Env) returns (r: AppResult)
      modifies db
      ensures var (rs, o) := Reconcile(old(db.records), dirExists, Listing(tasks, order, env));
        db.records == rs && r == (if o.Pass? then Success(JNull) else Failure(AnyHow(o.msg)))
    {
      var o := db.Update(dirExists, Listing(tasks, order, env));
      r := if o.Pass? then Success(JNull) else Failure(AnyHow(o.msg));
    }
  }
}

=== FILE: scaffold.dfy ===
/** What `create_new_task` writes: the manifest template filled by two
    `str::replace` calls, and the start script for the platform. */
module Scaffold {
  import opened Common

  /** `str::replace` with a non-empty pattern: occurrences are found left to
      right without overlapping, and the replacement is not searched again. */
  function Replace(s: string, pat: string, rep: string): string
    requires pat != []
    decreases |s|
  {
    if |s| < |pat| then s
    else if s[..|pat|] == pat then rep + Replace(s[|pat|..], pat, rep)
    else [s[0]] + Replace(s[1..], pat, rep)
  }

  /** A prefix that does not contain the pattern's first character is kept as it is. */
  lemma {:induction false} ReplaceSkips(a: string, b: string, pat: string, rep: string)
    requires pat != [] && pat[0] !in a
    ensures Replace(a + b, pat, rep) == a + Replace(b, pat, rep)
    decreases |a|
  {
    if a != [] {
      if |a + b| >= |pat| {
        assert (a + b)[..|pat|][0] == a[0] != pat[0];
        assert (a + b)[1..] == a[1..] + b;
        ReplaceSkips(a[1..], b, pat, rep);
      } else {
        ReplaceShort(b, pat, rep);
      }
    } else {
      assert a + b == b;
    }
  }

  lemma ReplaceShort(s: string, pat: string, rep: string)
    requires pat != [] && |s| < |pat|
    ensures Replace(s, pat, rep) == s
  {
  }

  /** The pattern at the front is replaced. */
  lemma ReplaceFront(b: string, pat: string, rep: string)
    requires pat != []
    ensures Replace(pat + b, pat, rep) == rep + Replace(b, pat, rep)
  {
    assert (pat + b)[..|pat|] == pat;
    assert (pat + b)[|pat|..] == b;
  }

  /** The replacement of a pattern whose first character does not occur in `a`. */
  lemma ReplaceOne(a: string, pat: string, rep: string, b: string)
    requires pat != [] && pat[0] !in a
    ensures Replace(a + pat + b, pat, rep) == a + rep + Replace(b, pat, rep)
  {
    assert a + pat + b == a + (pat + b);
    ReplaceSkips(a, pat + b, pat, rep);
    ReplaceFront(b, pat, rep);
  }

  /** A text without the pattern's first character is left as it is. */
  lemma ReplaceNone(a: string, pat: string, rep: string)
    requires pat != [] && pat[0] !in a
    ensures Replace(a, pat, rep) == a
  {
    ReplaceSkips(a, [], pat, rep);
    assert a + [] == a;
    ReplaceShort([], pat, rep);
  }

  const ConfigHead := "uuid = \""
  const ConfigMid := "\"\nname = \""
  const ConfigTail := "\"\ndescription = \"This is an example task\"\n"

  /** The manifest of a new task with the given uuid and name. */
  function ConfigText(uuid: string, name: string): string {
    ConfigHead + uuid + ConfigMid + name + ConfigTail
  }

  /** The manifest template, with the placeholders `{uuid}` and `{name}`. */
  const ConfigTemplate := ConfigText("{uuid}", "{name}")

  /** A text that starts like the pattern but differs from it within its
      length keeps its first character. */
  lemma ReplaceMismatch(c: char, z: string, pat: string, rep: string)
    requires pat != [] && |pat| <= |z| + 1 && ([c] + z)[..|pat|] != pat
    ensures Replace([c] + z, pat, rep) == [c] + Replace(z, pat, rep)
  {
    assert ([c] + z)[1..] == z;
  }

  /** Replacing `{uuid}` in a template whose fixed parts hold no '{' fills the
      uuid and leaves `{name}`. */
  lemma FillUuid(head: string, mid: string, tail: string, uuid: string)
    requires '{' !in head && '{' !in mid && '{' !in tail
    ensures Replace(head + "{uuid}" + mid + "{name}" + tail, "{uuid}", uuid) == head + uuid + mid + "{name}" + tail
  {
    var y := "{name}" + tail;
    assert head + "{uuid}" + mid + "{name}" + tail == head + "{uuid}" + (mid + y);
    ReplaceOne(head, "{uuid}", uuid, mid + y);
    ReplaceSkips(mid, y, "{uuid}", uuid);
    NamePlaceholderKept(tail, uuid);
  }

  /** `{name}` is not an occurrence of `{uuid}`. */
  lemma NamePlaceholderKept(tail: string, uuid: string)
    requires '{' !in tail
    ensures Replace("{name}" + tail, "{uuid}", uuid) == "{name}" + tail
  {
    var z := "name}" + tail;
    assert "{name}" + tail == ['{'] + z;
    assert (['{'] + z)[..6][1] == 'n';
    ReplaceMismatch('{', z, "{uuid}", uuid);
    ReplaceNone(z, "{uuid}", uuid);
  }

  /** Replacing `{name}` then fills the name, provided nothing before it and
      after it holds a '{'. */
  lemma FillName(head: string, tail: string, name: string)
    requires '{' !in head && '{' !in tail
    ensures Replace(head + "{name}" + tail, "{name}", name) == head + name + tail
  {
    ReplaceOne(head, "{name}", name, tail);
    ReplaceNone(tail, "{name}", name);
  }

  /** The two replacements fill the template: for a uuid without '{' (a UUID's
      hyphenated hex form has none), the result is the manifest with that uuid
      and that name, whatever the name contains. */
  lemma FillTemplate(uuid: string, name: string)
    requires '{' !in uuid
    ensures Replace(Replace(ConfigTemplate, "{uuid}", uuid), "{name}", name) == ConfigText(uuid, name)
  {
    FillUuid(ConfigHead, ConfigMid, ConfigTail, uuid);
    FillName(ConfigHead + uuid + ConfigMid, ConfigTail, name);
  }

  /** Text made of the given lines, each ended by a newline. */
  function TextOfLines(lines: seq<string>): string {
    if lines == [] then [] else lines[0] + "\n" + TextOfLines(lines[1..])
  }

  /** The Unix script of a new task; its comment reads "change to the
      script's directory". */
  const UnixScript := TextOfLines([
    "#!/bin/sh",
    "echo \"Running task...\"",
    "SCRIPT_DIR=$(cd \"$(dirname \"$0\")\" && pwd)",
    "# \U{5207}\U{6362}\U{5230}\U{811A}\U{672C}\U{6240}\U{5728}\U{76EE}\U{5F55}",
    "cd \"$SCRIPT_DIR\"",
    "# Add your task logic here"])

  const WindowsScript := TextOfLines([
    "@echo off",
    "echo Running task...",
    "REM Add your task logic here"])

  /** The script file a new task gets on the platform: its name, its text
      and the bytes written for it. */
  function ScriptName(unix: bool): string {
    if unix then "run.sh" else "run.bat"
  }

  function ScriptText(unix: bool): string {
    if unix then UnixScript else WindowsScript
  }

  function ScriptBytes(unix: bool): Bytes {
    Utf8(ScriptText(unix))
  }

  /** The two replacements `create_new_task` applies to the template: with a
      UUID's text, the result is the manifest naming the task. */
  method FillConfig(uuid: string, name: string) returns (content: string)
    requires IsUuidText(uuid)
    ensures content == ConfigText(uuid, name)
  {
    content := Replace(Replace(ConfigTemplate, "{uuid}", uuid), "{name}", name);
    assert '{' !in uuid;
    FillTemplate(uuid, name);
  }

  /** The text of a v4 UUID as `to_string` renders it: lowercase hex digits and hyphens. */
  predicate IsUuidText(uuid: string) {
    forall i :: 0 <= i < |uuid| ==> uuid[i] in "0123456789abcdef-"
  }

  /** `create_new_task`: a new directory holding `config.toml`, the manifest
      naming the task, and on Unix `run.sh` with mode 0o755, elsewhere
      `run.bat`. An existing name is refused. `stamp` is the metadata a newly
      written file gets. */
  function NewTaskSpec(cwd: Area, name: string, uuid: string, unix: bool, stamp: Meta): (Area, Outcome) {
    if name in cwd then (cwd, Fail("File exists"))
    else
      var files := map["config.toml" := File(Utf8(ConfigText(uuid, name)), stamp)];
      var mode := if unix then Mode755 else stamp.mode;
      var files' := files[ScriptName(unix) := File(ScriptBytes(unix), Meta(mode, stamp.mtime))];
      (cwd[name := Directory(files')], Pass)
  }
}
